=== FILE: README.md ===
# Bank-exam practice tests: the session engine and the generation helpers

The system generates multiple-choice practice tests for bank exams. A Flask
back end (`main.py`) asks a language model for questions on a topic, cleans
the reply into a JSON array and tags every question with its topic. A browser
front end (`static/script.js`) runs the test session: it assembles the question
list (one topic, or a mock test across all topics of a subject), shows one
question at a time with a palette and Next/Previous buttons, records answers
(a first answer schedules an auto-advance), counts down a pausable timer that
submits the test when it runs out, and shows the score, the time taken and a
per-question review.

This project models that core in Dafny:

- `TimeFormat.dfy` — `formatTime`: zero-padded `MM:SS`, and a parser proving
  that what is shown denotes exactly the seconds given.
- `TopicPaging.dfy` — the eight-per-page topic list and its Previous/Next
  controls.
- `Loading.dfy` — the loading countdown and the simulated progress counter,
  as a class updated by its interval callbacks.
- `Questions.dfy` — the question record, a request's outcome, and the
  `/api/generate-test` request body.
- `MockAssembly.dfy` — the per-topic count, the pool built by the sequential
  requests, and the shuffled and truncated sample.
- `Shuffling.dfy` — the random reorderings, as any order that keeps each
  element as often as it was there.
- `SessionViews.dfy` — what is derived from the session state: the index
  moves, the nav-button and palette flags, the score, the time taken and the
  review tags.
- `Session.dfy` — `appState` as a class whose methods are the event handlers.
  `userAnswers` is an array written in place. A timer tick, an auto-advance
  firing and the answer to `confirm` are explicit method calls or parameters.
  `Date.now()` is the `now` parameter. A network round trip is given as its
  outcome (`Fetch`).
- `Cleaning.dfy` — `clean_gemini_json_response`: the literal deletions, the
  outermost `[...]` span, the four case-insensitive phrase deletions and
  `strip()`.
- `Generation.dfy` — the `num_questions <= 0` guard, the two-attempt loop and
  the topic tagging of `generate_questions_for_topic`. From `generate_test` it
  models the subject lookup, the context/general split, and the error for an
  empty result. The model's replies, `json.loads`, the readable topic files
  and `random.shuffle` are parameters.

Behaviours of the code that the model keeps:

- `formatTime` does not wrap minutes at 60: 3600 seconds is shown as `60:00`.
- A pending auto-advance is not cancelled when the test is submitted, so it
  outlives the submission. When it fires, it reads the question index
  current at that moment (`Session.AppState.FireAutoAdvance`).
- The loading intervals fire while a request is outstanding. Each flow is
  split at its `await`s: `StartTest`, then `BeginTopicWiseTest` and
  `SettleTopicWiseTest`, or `BeginSubjectMockTest`, `RequestTopics` and
  `FinishSubjectMockTest`, in turn. A `Wait` says how often each interval
  fired during one request (`Loading.LoadingIndicator.Elapse`).
- A topic-wise request that succeeds with an empty list makes `renderTest`
  throw at `displayQuestion(0)`. That exception lands in the same `catch` as
  a network failure, so the page reloads. In a mock test an empty pool leaves
  the exception uncaught. The model stops there (`Launch.Faulted`): the test
  screen is up with no question, and the timer is running.

## Model

| member | source | states |
|---|---|---|
| TimeFormat.Decimal | static/script.js:63 | the rendering is a non-empty digit string; it is one digit exactly below 10 and two digits from 10 to 99 |
| TimeFormat.DecimalRoundTrip | static/script.js:63 | reading the digits back gives the number rendered |
| TimeFormat.Pad2 | static/script.js:63 | the padded field has at least two digits, exactly two below 100, and denotes the number given |
| TimeFormat.FormatTime | static/script.js:60-64 | the text has a colon followed by two seconds digits, and is exactly five characters below 100 minutes |
| TimeFormat.FormatTimeRoundTrip | static/script.js:60-64 | parsing `formatTime(s)` as minutes and seconds gives back s, so no hour field is needed |
| TimeFormat.FormatTimeInjective | static/script.js:60-64 | different second counts never show the same text |
| TopicPaging.Slice | static/script.js:166 | `slice` clamps both ends to the length and keeps the elements in order |
| TopicPaging.RenderTopicsPage | static/script.js:155-178 | an empty topic list shows only the error; otherwise a page holds at most eight topics |
| TopicPaging.PageContents | static/script.js:164-174 | page p shows topics 8p up to min(8p+8, n); Previous appears iff p > 0; Next appears iff 8p+8 < n |
| TopicPaging.EveryTopicOnItsPage | static/script.js:164-166 | topic i appears on page i/8 at position i%8, and on no other page |
| TopicPaging.NextPageNonEmpty | static/script.js:174-191 | following Next leads to a page with at least one topic and a Previous control |
| TopicPaging.PrevPageFull | static/script.js:173-190 | following Previous leads to a full page of eight that offers Next |
| Loading.EstimatedSeconds | static/script.js:251 | the estimate is exactly four seconds per item: a multiple of 4, zero exactly for zero items, and it divides back to the item count |
| Loading.CountdownSettles | static/script.js:225-232 | once past zero the countdown says "Finishing up..." for ever |
| Loading.CountdownShowsRemaining | static/script.js:221-232 | before zero the countdown text shows exactly the estimate minus the ticks elapsed |
| Loading.LoadingIndicator.constructor | static/script.js:221-261 | both schedules start: the countdown shows the estimate, and the progress counter is 0 of the `totalIntervals` the flow computes (`estimate * 1000 / 100` topic-wise, `/ 200` in a mock) |
| Loading.LoadingIndicator.CountdownTick | static/script.js:225-232 | `remaining` drops by one; the text shows it while non-negative, then "Finishing up..." |
| Loading.LoadingIndicator.ProgressTick | static/script.js:263-269 | the counter rises by one until it reaches `totalIntervals` and never passes it |
| Loading.LoadingIndicator.Elapse | static/script.js:225-232 | while one request is outstanding, the countdown fires `countdownTicks` times and the progress interval `progressTicks` times, and the indicator stays consistent |
| Loading.LoadingIndicator.Stop | static/script.js:285-286 | both schedules are cleared |
| Loading.LoadingIndicator.FillBar | static/script.js:287 | the bar is set to full |
| MockAssembly.QuestionsPerTopic | static/script.js:304 | the per-topic count is at least 1, covers the total across all topics, and is the least such count |
| MockAssembly.PoolAppend | static/script.js:327-341 | accumulation is sequential: the pool of two runs of topics is their pools concatenated |
| MockAssembly.FailedTopicSkipped | static/script.js:336-340 | a failed topic adds nothing, and the topics around it keep their order |
| MockAssembly.PoolFromSuccesses | static/script.js:327-341 | every pooled question came from a topic whose request succeeded |
| MockAssembly.PoolSize | static/script.js:337 | the pool's size is the sum of the successful topics' yields |
| MockAssembly.Sample | static/script.js:347 | `slice(0, total)` keeps the first min(pool size, total) questions of the shuffled pool, in its order |
| MockAssembly.SampleOfShuffle | static/script.js:347 | the final list has min(pool size, total) questions and is a sub-multiset of the pool |
| Shuffling.ShuffleKeepsLength | static/script.js:347 | a shuffle neither adds nor drops questions |
| SessionViews.MovesStayInBounds | static/script.js:402-403 | Next and Previous move by exactly one, only when the result is a valid index, and never leave bounds |
| SessionViews.PrevUndoesNext | static/script.js:402-403 | Previous after a Next that moved returns to the starting question |
| SessionViews.NavButtonsAt | static/script.js:405-408 | at a valid index, a nav button is disabled exactly when pressing it would not move |
| SessionViews.Palette | static/script.js:422-427 | there is one palette button per question; button i is current exactly at the shown index and answered exactly when `userAnswers[i]` is not null |
| SessionViews.CountUnanswered | static/script.js:469 | the unanswered count never exceeds the number of questions |
| SessionViews.PaletteAgreesWithState | static/script.js:422-427 | exactly one button is current, button i is answered exactly when question i has an answer, and answered buttons plus unanswered questions make up all questions |
| SessionViews.SelectedMarks | static/script.js:381 | there is one selection flag per option, set on option i exactly when `userAnswers[index] === i` |
| SessionViews.SelectedMarksMeaning | static/script.js:377-384 | option i is highlighted exactly when the recorded answer is i; at most one is, and one is exactly when the recorded answer names an option, which is then the one highlighted |
| SessionViews.RenderQuestion | static/script.js:369-387 | the view shows "Question index + 1 of n" with that question's own text and options, one selection flag per option, and one palette button per question, the shown one current |
| SessionViews.RenderQuestionMeaning | static/script.js:377-387 | on the shown question, option i is highlighted exactly when its recorded answer is i; Previous and Next are disabled exactly when they would not move; palette button i is current exactly at the index and answered exactly when question i has an answer |
| SessionViews.ScoreBound | static/script.js:483-487 | null answers never score: score + unanswered <= total |
| SessionViews.FullScore | static/script.js:483-487 | full marks exactly when every question is answered with its key |
| SessionViews.ScoreOfCorrectPrefix | static/script.js:484-487 | answering the first k questions with their keys and leaving the rest blank scores exactly k |
| SessionViews.Score | static/script.js:483-487 | the score never exceeds the number of questions |
| SessionViews.TimeTakenSeconds | static/script.js:490 | the whole seconds elapsed, rounded down, and non-negative when the end is not before the start |
| SessionViews.ReviewTags | static/script.js:516-526 | every option gets exactly one tag |
| SessionViews.ReviewTagsMeaning | static/script.js:516-526 | the key's option is the only "correct" one; "incorrect" goes only to a user answer that differs from the key; an unanswered or correctly answered question has no "incorrect" tag |
| SessionViews.RenderReview | static/script.js:508-531 | the review page shows question index + 1 of n with its own text and explanation, one tag per option, the key's option tagged correct |
| SessionViews.ConfirmMessage | static/script.js:470-472 | the unanswered count can be read back from the message exactly when it is positive; otherwise the plain confirmation is asked |
| Session.CountScore | static/script.js:484-487 | the loop over the answer array counts exactly the questions answered with their key |
| Session.AppState.constructor | static/script.js:3-19 | the initial `appState`: the mode-selection step, no questions, index 0, not paused, no timer |
| Session.AppState.Reload | static/script.js:295 | a reload returns every field to the initial state |
| Session.AppState.NavigateToStep | static/script.js:122-128 | only the named step stays visible; an unknown name hides all steps and keeps `currentUiStep` |
| Session.AppState.DisplayTopics | static/script.js:148-153 | the topic list restarts at page 0 on the topic step |
| Session.AppState.NextTopicsPage | static/script.js:191 | the page number rises by one and the new page is not empty |
| Session.AppState.PrevTopicsPage | static/script.js:190 | the page number drops by one |
| Session.AppState.DisplayQuestion | static/script.js:369-387 | while paused nothing changes; otherwise the index becomes the one given and that question is rendered |
| Session.AppState.SelectOption | static/script.js:389-400 | while paused nothing changes; otherwise only the current entry of `userAnswers` is written, and an auto-advance is scheduled exactly when that entry was null |
| Session.AppState.ShowNextQuestion | static/script.js:402 | the index moves forward by one unless at the last question or paused; a question is rendered exactly when the index moved, and it is the new current one |
| Session.AppState.ShowPrevQuestion | static/script.js:403 | the index moves back by one unless at the first question or paused; a question is rendered exactly when the index moved, and it is the new current one |
| Session.AppState.FireAutoAdvance | static/script.js:395-397 | a pending advance fires against the index current at firing time, changes no answer, and renders the new question exactly when the index moved |
| Session.AppState.TogglePauseTimer | static/script.js:453-454 | the pause flag flips |
| Session.AppState.StartTimer | static/script.js:430-435 | any earlier interval is replaced by one counting down from the duration |
| Session.AppState.Tick | static/script.js:435-450 | a paused tick changes nothing; an unpaused tick shows the value and then decrements it; the (d+1)-th unpaused tick, and no other, clears the interval and submits with the score; any other tick keeps the screen, the end time and the review index |
| Session.AppState.ConfirmAndSubmitTest | static/script.js:468-474 | the prompt reports the unanswered count, and only a confirmed prompt submits, with the score; a declined prompt keeps the timer, the screen, the end time and the review index |
| Session.AppState.SubmitTest | static/script.js:476-481 | the interval is cleared, the end time recorded, and the results shown |
| Session.AppState.CalculateAndShowResults | static/script.js:483-506 | the results hold the score, the total, the formatted time taken and the first review page |
| Session.AppState.ShowNextReviewQuestion | static/script.js:533-538 | the review index moves forward by one only while in bounds |
| Session.AppState.ShowPrevReviewQuestion | static/script.js:540-545 | the review index moves back by one only while in bounds |
| Session.AppState.RenderTest | static/script.js:352-367 | a fresh all-null answer array as long as the question list; the test screen, index 0, the start time `now` and the timer started at the duration, whatever the list; question 0 shown, or nothing for an empty list; the question list, the end time and the review index are not touched |
| Session.AppState.StartTest | static/script.js:235-248 | before either flow runs, every step is hidden |
| Session.AppState.BeginTopicWiseTest | static/script.js:250-277 | the request is topic-wise for the chosen subject, unit and topic; both schedules start from the estimate, with `estimate * 10` progress intervals |
| Session.AppState.SettleTopicWiseTest | static/script.js:279-296 | both schedules stop; a failure or an empty list reloads to the initial state; otherwise the result becomes the question list verbatim, the bar is full and question 0 is shown; the steps stay as `startTest` left them (all hidden), and the current step, the topic page, pending advances, the review index and the end time are kept |
| Session.AppState.BeginSubjectMockTest | static/script.js:300-325 | the list is emptied; the per-topic count is fixed; both schedules start from the estimate, with `estimate * 5` progress intervals |
| Session.AppState.RequestTopics | static/script.js:327-341 | one request per topic in topic order; each topic's questions are appended after the earlier ones; the intervals fire as often as the waits say |
| Session.AppState.FinishSubjectMockTest | static/script.js:343-349 | both schedules stop and the bar is full; the pool is shuffled and cut to the total; the test screen, index 0, the start time and the timer at the duration are up whatever the list; question 0 is shown, or the flow faults with an empty list; `isPaused`, the steps and the loading counts are not touched |
| ResponseCleaning.RemoveAll | main.py:44 | `replace(p, "")` only deletes: the result is a sub-multiset of the input and no longer |
| ResponseCleaning.RemoveAllChar | main.py:52 | deleting every `$` leaves no `$` |
| ResponseCleaning.RemoveAllAbsent | main.py:44 | a text without the pattern is left unchanged |
| ResponseCleaning.LeadingSpaces | main.py:60 | counts exactly the whitespace prefix |
| ResponseCleaning.TrailingSpaces | main.py:60 | counts exactly the whitespace suffix |
| ResponseCleaning.Strip | main.py:60 | the result is a contiguous part of the input with no whitespace at either end, and everything cut off on either side is whitespace |
| ResponseCleaning.StripIdempotent | main.py:60 | stripping twice is stripping once |
| ResponseCleaning.IndexOf | main.py:45 | the first position of the character, or the length when there is none |
| ResponseCleaning.LastIndexOf | main.py:45 | the last position of the character, or -1 when there is none |
| ResponseCleaning.ArraySpanBounds | main.py:45-46 | the regex matches exactly when the first `[` comes before the last `]` |
| ResponseCleaning.ExtractArray | main.py:45-50 | when a `[` is followed somewhere by a `]`, the kept text runs from the first `[` to the last `]`; otherwise the whole text is kept |
| ResponseCleaning.NewlineRun | main.py:55-58 | `\n*` at the start takes every leading newline: all characters it covers are newlines, and the next one is not |
| ResponseCleaning.MatchLength | main.py:55-58 | the pattern matches at the start exactly when the phrase, up to case, follows the leading newlines; the match is those newlines, the phrase, the optional character whenever it is there, and every newline after it up to another character or the end |
| ResponseCleaning.RemoveMatches | main.py:55-58 | `re.sub(p, '', s)` only deletes: the result is a sub-multiset of the input |
| ResponseCleaning.RemoveMatchesAbsent | main.py:55-58 | a text where the phrase matches nowhere is left unchanged |
| ResponseCleaning.DeletionKeepsOut | main.py:52-60 | a character absent before a deletion step is absent after it |
| ResponseCleaning.CleanGeminiJsonResponse | main.py:40-60 | the output has no `$` and no leading or trailing whitespace |
| QuestionGeneration.TagQuestions | main.py:115-116 | tagging succeeds exactly when every item is an object; then every question keeps its fields, with `topic` set to the requested topic |
| QuestionGeneration.TaggedAll | main.py:115-116 | every tagged question carries the requested topic |
| QuestionGeneration.GenerateForTopic | main.py:101-123 | a non-positive count gives []; otherwise the first attempt whose reply loads to a non-empty list of objects gives that list, tagged and non-empty; two failed attempts give []; every question returned carries the topic |
| QuestionGeneration.GenerateQuestionsForTopic | main.py:96-123 | the loop returns the first successful attempt's tagged list; it sends the full prompt first and the fallback prompt (without context) only after a failure |
| QuestionGeneration.Lower | main.py:160 | lower-casing keeps the length, maps each ASCII capital to its small letter, and leaves every other character unchanged |
| QuestionGeneration.FindSubjectFolder | main.py:157-162 | the loop with `break` yields the folder of the first matching key, and None for a missing or empty subject |
| QuestionGeneration.LookupFolder | main.py:157-162 | a missing or empty subject finds no folder; a folder found is that of a key equal to the subject up to case |
| QuestionGeneration.FirstMatchMeaning | main.py:159-162 | a folder is found iff some key matches, and it is the earliest matching key's folder |
| QuestionGeneration.LookupMeaning | main.py:157-162 | the lookup gives the first key equal to the subject up to case, and None iff there is none |
| QuestionGeneration.LookupIgnoresCase | main.py:160 | subjects that differ only in letter case find the same folder |
| QuestionGeneration.KeyFindsItsFolder | main.py:18-23 | any spelling of a key, up to case, finds that key's own folder |
| QuestionGeneration.ContextFor | main.py:164-173 | without a folder or a topic there is no context; with a non-empty folder and topic whose file can be read, there is one; a context is the text of that folder's file for that topic |
| QuestionGeneration.SplitPartition | main.py:177-193 | a topic-wise request with context asks for exactly n questions in total, each request for a positive count; any other request asks for all n in one call |
| QuestionGeneration.PlannedCalls | main.py:177-193 | an unsplit request is one call for all n; a split one is at most two calls, each for a positive count; every call uses the topic file's text or the general context |
| QuestionGeneration.GatheredAppend | main.py:182-189 | each `extend` appends the next request's questions at the end |
| QuestionGeneration.Gathered | main.py:175-193 | every gathered question carries the requested topic |
| QuestionGeneration.LoadContext | main.py:155-173 | the context is the topic file's text exactly when a folder was found and the file can be read; otherwise it is the default text |
| QuestionGeneration.CollectQuestions | main.py:175-193 | the requests made are the planned ones, and the questions are their results in request order |
| QuestionGeneration.GenerateTest | main.py:146-199 | without a model: error 500; an empty result: error 500 naming the topic, never an empty success; a success is the shuffled pool, and every question in it is tagged |

## Left out

- The DOM: `classList`, `innerHTML`, event listeners, `alert`, and the text
  of the labels. `confirm` is a boolean parameter. `location.reload()` is
  `Session.AppState.Reload`.
- `fetch` and `handleApiResponse` (static/script.js:45-58). A request's
  outcome is a `Fetch` parameter: a list, or a failure.
- `setInterval`, `setTimeout` and `Date.now()`. Ticks and the 300 ms
  auto-advance are method calls. Times are integer parameters.
- Whether the loading indicator is visible: `startTest` shows it
  (static/script.js:239) and `renderTest` hides it (static/script.js:357).
  `Loading.LoadingIndicator` models its schedules and counters.
- Floating point: the progress-bar width and the `toFixed(2)` percentage. Only
  the integer counter `currentInterval <= totalIntervals` is kept.
- QuestionGeneration.GenerateTest: `math.ceil(num_questions * 0.7)` is the
  parameter `contextShare`, assumed to lie between 0 and n. Only the
  partition of n is proved, not the value of the share.
- Randomness: the random-comparator `sort` and `random.shuffle` are a
  parameter that may return any reordering keeping each element's count.
- The model's `generate_content` calls, `time.sleep`, and the wording of the
  two prompt templates. A reply is `Raised` or its text. What `json.loads`
  makes of the cleaned reply is the `load` parameter, so the cleaner and the
  generation loop are proved separately.
- JSON floats and the key order of objects. JSON numbers are integers here,
  and an object is a map.
- The file system: `get_structure`'s directory listing, and the reading of a
  topic file. The readable files are a map from (folder, topic) to text; a
  file that raises while being read counts as absent, as in the code.
- The chat hint feature (static/script.js:547-585, main.py:201-219). It is a
  request and a response with no logic.
- The `appState` field `structure`: the catalogue the topic lists come from
  (static/script.js:156, 301-303). The methods take those lists as
  parameters.
- The `appState` field `currentTestMode`: it picks which flow `startTest`
  runs (static/script.js:243-247). The caller picks the method.
- The `appState` fields `selectedSubject`, `selectedUnit` and `selectedTopic`.
  They become parameters of the methods.
- The error path of the mock flow before its first request: when the subject
  is missing from `structure`, or `structure` is null, static/script.js:301-303
  throws a TypeError. No request is sent, and the loading indicator shown at
  static/script.js:239-240 stays visible. The mock methods start from a topic
  list that was found.
- Session.AppState.Tick, Session.AppState.ConfirmAndSubmitTest,
  Session.AppState.SubmitTest and Session.AppState.CalculateAndShowResults:
  require that the clock never goes backwards (`now >= testStartTime`). A
  negative time taken, which `formatTime(-1)` would show as `0-1:0-1`, is
  not modelled.
- QuestionGeneration.Lower: folds ASCII letters only, where `str.lower()`
  folds all of Unicode. The four subject keys are ASCII and contain no `k`,
  the one ASCII letter that `str.lower()` also yields from a non-ASCII
  character (the Kelvin sign), so against them the lookup decides as
  `str.lower()` does.
- The request parsing of `generate_test`: the defaults (10 questions,
  "topic-wise") and `int()`. The model starts from the parsed values.
- `handleSubjectSelection`, `displayConfig` and the back-button handler. They
  only choose which step and which option lists to show.
- ResponseCleaning.MatchLength: `re.IGNORECASE` is modelled by folding ASCII
  letters only. Unicode case-insensitive matching, under which `ſ` matches the
  `s` and `ı` the `i` of the phrases, is not modelled.
- Session.AppState.RenderTest, Session.AppState.SettleTopicWiseTest and
  Session.AppState.FinishSubjectMockTest: require the session not to be
  paused. The pause button lives on the test screen, and a new test starts
  only after a reload.
- Session.AppState.FinishSubjectMockTest: when the pool is empty, the model
  stops at the exception `displayQuestion(0)` throws (`Launch.Faulted`). The
  timer it leaves running on an empty test is stated, but nothing that
  follows the uncaught exception is modelled.
- Loading.EstimatedSeconds: `Math.ceil(4 * n)` of a whole n is the product
  itself. No fractional counts are modelled.

=== FILE: Cleaning.dfy ===
/**
 * `clean_gemini_json_response` of main.py: literal deletions, the outermost
 * `[...]` span, four case-insensitive phrase deletions and `strip()`.
 */
module ResponseCleaning {
  import opened Wrappers

  /** `str.replace(pattern, "")`: occurrences found left to right, without overlap, are deleted. */
  function RemoveAll(s: string, pattern: string): (r: string)
    requires |pattern| > 0
    ensures multiset(r) <= multiset(s) && |r| <= |s|
    decreases |s|
  {
    if |s| < |pattern| then s
    else if s[..|pattern|] == pattern then
      assert s == s[..|pattern|] + s[|pattern|..];
      RemoveAll(s[|pattern|..], pattern)
    else
      assert s == [s[0]] + s[1..];
      [s[0]] + RemoveAll(s[1..], pattern)
  }

  /** Deleting every occurrence of a one-character pattern leaves none of that character. */
  lemma {:induction false} RemoveAllChar(s: string, c: char)
    ensures c !in RemoveAll(s, [c])
    decreases |s|
  {
    if |s| >= 1 {
      if s[..1] == [c] {
        RemoveAllChar(s[1..], c);
      } else {
        RemoveAllChar(s[1..], c);
        assert s[0] != c;
      }
    }
  }

  /** r occurs in s at position i. */
  predicate SliceAt(s: string, i: int, r: string) {
    0 <= i <= |s| - |r| && s[i..i + |r|] == r
  }

  /** A text without an occurrence of the pattern is left as it is. */
  lemma {:induction false} RemoveAllAbsent(s: string, pattern: string)
    requires |pattern| > 0
    requires forall i :: !SliceAt(s, i, pattern)
    ensures RemoveAll(s, pattern) == s
    decreases |s|
  {
    if |s| >= |pattern| {
      assert !SliceAt(s, 0, pattern);
      assert s[0..|pattern|] == s[..|pattern|];
      forall i | 0 <= i <= |s[1..]| - |pattern| ensures !SliceAt(s[1..], i, pattern) {
        assert !SliceAt(s, i + 1, pattern);
        assert s[1..][i..i + |pattern|] == s[i + 1..i + 1 + |pattern|];
      }
      RemoveAllAbsent(s[1..], pattern);
      assert s == [s[0]] + s[1..];
    }
  }

  /** The characters Python's `str.strip()` removes (`str.isspace()`). */
  predicate IsSpace(c: char) {
    || c == ' ' || '\t' <= c <= '\r' || '\U{1C}' <= c <= '\U{1F}'
    || c == '\U{85}' || c == '\U{A0}' || c == '\U{1680}' || '\U{2000}' <= c <= '\U{200A}'
    || c == '\U{2028}' || c == '\U{2029}' || c == '\U{202F}' || c == '\U{205F}' || c == '\U{3000}'
  }

  function LeadingSpaces(s: string): (k: nat)
    ensures k <= |s|
    ensures forall i :: 0 <= i < k ==> IsSpace(s[i])
    ensures k < |s| ==> !IsSpace(s[k])
  {
    if s != [] && IsSpace(s[0]) then 1 + LeadingSpaces(s[1..]) else 0
  }

  function TrailingSpaces(s: string): (k: nat)
    ensures k <= |s|
    ensures forall i :: |s| - k <= i < |s| ==> IsSpace(s[i])
    ensures k < |s| ==> !IsSpace(s[|s| - 1 - k])
  {
    if s != [] && IsSpace(s[|s| - 1]) then 1 + TrailingSpaces(s[..|s| - 1]) else 0
  }

  /** `str.strip()`: the text between the leading and the trailing whitespace. */
  function Strip(s: string): (r: string)
    ensures r == [] || (!IsSpace(r[0]) && !IsSpace(r[|r| - 1]))
    ensures multiset(r) <= multiset(s)
    ensures exists a, b :: 0 <= a <= b <= |s| && r == s[a..b]
              && (forall k :: 0 <= k < a ==> IsSpace(s[k]))
              && (forall k :: b <= k < |s| ==> IsSpace(s[k]))
  {
    var a := LeadingSpaces(s);
    var t := s[a..];
    var b := a + |t| - TrailingSpaces(t);
    assert s[a..b] == t[..|t| - TrailingSpaces(t)];
    forall k | b <= k < |s| ensures IsSpace(s[k]) {
      assert s[k] == t[k - a];
    }
    TrimmedSlice(s, a, b);
    s[a..b]
  }

  /** The slice of s between a whitespace prefix and a whitespace suffix. */
  lemma TrimmedSlice(s: string, a: nat, b: nat)
    requires a <= b <= |s|
    requires forall k :: 0 <= k < a ==> IsSpace(s[k])
    requires forall k :: b <= k < |s| ==> IsSpace(s[k])
    ensures multiset(s[a..b]) <= multiset(s)
    ensures exists a', b' :: 0 <= a' <= b' <= |s| && s[a..b] == s[a'..b']
              && (forall k :: 0 <= k < a' ==> IsSpace(s[k]))
              && (forall k :: b' <= k < |s| ==> IsSpace(s[k]))
  {
    assert s == s[..a] + s[a..b] + s[b..];
    assert multiset(s) == multiset(s[..a]) + multiset(s[a..b]) + multiset(s[b..]);
  }

  /** Stripping twice is stripping once. */
  lemma StripIdempotent(s: string)
    ensures Strip(Strip(s)) == Strip(s)
  {
    var r := Strip(s);
    if r != [] {
      assert LeadingSpaces(r) == 0;
      assert TrailingSpaces(r) == 0;
      assert r[0..] == r && r[..|r|] == r;
    }
  }

  /** The first position of c, or |s| when there is none. */
  function IndexOf(s: string, c: char): (i: nat)
    ensures i <= |s| && (i < |s| ==> s[i] == c)
    ensures forall k :: 0 <= k < i ==> s[k] != c
  {
    if s == [] then 0 else if s[0] == c then 0 else 1 + IndexOf(s[1..], c)
  }

  /** The last position of c, or -1 when there is none. */
  function LastIndexOf(s: string, c: char): (j: int)
    ensures -1 <= j < |s| && (j >= 0 ==> s[j] == c)
    ensures forall k :: j < k < |s| ==> s[k] != c
  {
    if s == [] then -1
    else if s[|s| - 1] == c then |s| - 1
    else LastIndexOf(s[..|s| - 1], c)
  }

  /** A `[` with a `]` somewhere after it: what `re.search(r'\[.*\]', t, re.DOTALL)` needs to match. */
  predicate HasArraySpan(t: string) {
    exists i, j :: 0 <= i < j < |t| && t[i] == '[' && t[j] == ']'
  }

  /** The regex matches exactly when the first `[` comes before the last `]`. */
  lemma ArraySpanBounds(t: string)
    ensures HasArraySpan(t) <==> IndexOf(t, '[') < LastIndexOf(t, ']')
  {
    var i, j := IndexOf(t, '['), LastIndexOf(t, ']');
    if HasArraySpan(t) {
      var a, b :| 0 <= a < b < |t| && t[a] == '[' && t[b] == ']';
      assert i <= a && b <= j;
    }
    if i < j {
      assert 0 <= i < j < |t| && t[i] == '[' && t[j] == ']';
    }
  }

  /**
   * The match of the greedy `\[.*\]`: from the first `[` to the last `]`;
   * without a match, the whole text.
   */
  function ExtractArray(t: string): (r: string)
    ensures !HasArraySpan(t) ==> r == t
    ensures HasArraySpan(t) ==>
      && 2 <= |r| && r[0] == '[' && r[|r| - 1] == ']'
      && exists i :: SliceAt(t, i, r) && '[' !in t[..i] && ']' !in t[i + |r|..]
  {
    var i := IndexOf(t, '[');
    var j := LastIndexOf(t, ']');
    ArraySpanBounds(t);
    if i < j then
      assert '[' !in t[..i];
      assert ']' !in t[j + 1..];
      assert SliceAt(t, i, t[i..j + 1]);
      t[i..j + 1]
    else
      t
  }

  /** One of the four `re.sub(..., flags=re.IGNORECASE)` patterns: `\n*`? phrase, one optional character, `\n*`. */
  datatype Phrase = Phrase(leadingNewlines: bool, text: string, optional: Option<char>)

  const HereAreQuestions := Phrase(false, "Here are the questions in JSON format", Some(':'))
  const PleaseFind := Phrase(true, "Please find the questions below in JSON format", Some('.'))
  const StartMarker := Phrase(true, "[START JSON]", None)
  const EndMarker := Phrase(true, "[END JSON]", None)

  /** ASCII case folding. */
  function Fold(c: char): char {
    if 'A' <= c <= 'Z' then (c as int + 32) as char else c
  }

  predicate StartsWithFolded(s: string, text: string) {
    |text| <= |s| && forall k :: 0 <= k < |text| ==> Fold(s[k]) == Fold(text[k])
  }

  /** The length of the run of newlines `\n*` takes at the start of s: all of them. */
  function NewlineRun(s: string): (k: nat)
    ensures k <= |s|
    ensures forall i :: 0 <= i < k ==> s[i] == '\n'
    ensures k < |s| ==> s[k] != '\n'
  {
    if s != [] && s[0] == '\n' then 1 + NewlineRun(s[1..]) else 0
  }

  /**
   * The length of the pattern's match at the start of s, or 0 when it does
   * not match there. It matches exactly when the phrase, up to case, follows
   * the leading newlines (all of them, when the pattern allows any). The match
   * is those newlines, the phrase, the optional character whenever it is
   * there, and then every newline up to the first other character or the end.
   */
  function MatchLength(s: string, p: Phrase): (m: nat)
    requires |p.text| > 0
    ensures m <= |s|
    ensures var lead := if p.leadingNewlines then NewlineRun(s) else 0;
      m > 0 <==> StartsWithFolded(s[lead..], p.text)
    ensures var after := (if p.leadingNewlines then NewlineRun(s) else 0) + |p.text|;
      m > 0 ==>
        && after <= m
        && (forall i :: after <= i < m ==> s[i] == '\n' || (i == after && p.optional == Some(s[i])))
        && (p.optional.Some? && after < |s| && s[after] == p.optional.value ==> after < m)
        && (m < |s| ==> s[m] != '\n')
  {
    var lead := if p.leadingNewlines then NewlineRun(s) else 0;
    if !StartsWithFolded(s[lead..], p.text) then 0
    else
      var afterText := lead + |p.text|;
      var opt := if p.optional.Some? && afterText < |s| && s[afterText] == p.optional.value then 1 else 0;
      afterText + opt + NewlineRun(s[afterText + opt..])
  }

  /** `re.sub(pattern, '', s)`: matches found left to right, without overlap, are deleted. */
  function RemoveMatches(s: string, p: Phrase): (r: string)
    requires |p.text| > 0
    ensures multiset(r) <= multiset(s) && |r| <= |s|
    decreases |s|
  {
    if s == [] then []
    else
      var m := MatchLength(s, p);
      if m > 0 then
        assert s == s[..m] + s[m..];
        RemoveMatches(s[m..], p)
      else
        assert s == [s[0]] + s[1..];
        [s[0]] + RemoveMatches(s[1..], p)
  }

  /** A text in which the pattern matches nowhere is left as it is. */
  lemma {:induction false} RemoveMatchesAbsent(s: string, p: Phrase)
    requires |p.text| > 0
    requires forall i :: 0 <= i < |s| ==> MatchLength(s[i..], p) == 0
    ensures RemoveMatches(s, p) == s
    decreases |s|
  {
    if s != [] {
      assert s[0..] == s;
      forall i | 0 <= i < |s[1..]| ensures MatchLength(s[1..][i..], p) == 0 {
        assert s[1..][i..] == s[i + 1..];
      }
      RemoveMatchesAbsent(s[1..], p);
      assert s == [s[0]] + s[1..];
    }
  }

  /** A character a step of the pipeline did not have, it cannot have afterwards. */
  lemma DeletionKeepsOut(r: string, s: string, c: char)
    requires multiset(r) <= multiset(s) && c !in s
    ensures c !in r
  {
    assert multiset(s)[c] == 0;
  }

  function CleanGeminiJsonResponse(responseText: string): (r: string)
    ensures '$' !in r
    ensures r == [] || (!IsSpace(r[0]) && !IsSpace(r[|r| - 1]))
  {
    var unfenced := Strip(RemoveAll(RemoveAll(responseText, "```json"), "```"));
    var jsonStr := ExtractArray(unfenced);
    var noDollars := RemoveAll(RemoveAll(jsonStr, "$$"), "$");
    var noParens := RemoveAll(RemoveAll(noDollars, "\\("), "\\)");
    var noBrackets := RemoveAll(RemoveAll(noParens, "\\["), "\\]");
    var noPhrases := RemoveMatches(RemoveMatches(RemoveMatches(RemoveMatches(
                       noBrackets, HereAreQuestions), PleaseFind), StartMarker), EndMarker);
    var r := Strip(noPhrases);
    RemoveAllChar(RemoveAll(jsonStr, "$$"), '$');
    assert multiset(r) <= multiset(noDollars);
    DeletionKeepsOut(r, noDollars, '$');
    r
  }
}

=== FILE: Generation.dfy ===
/**
 * The question-generation logic of main.py: the guard, the two-attempt loop
 * and the topic tagging of `generate_questions_for_topic`, and the subject
 * lookup, the context/general split and the empty-result error of
 * `generate_test`. The model's replies, what `json.loads` makes of a cleaned
 * reply, the file system and `random.shuffle` are parameters.
 */
module QuestionGeneration {
  import opened Wrappers
  import opened Shuffling
  import ResponseCleaning

  /** A JSON value as `json.loads` returns it (numbers kept to integers). */
  datatype Json =
    | JNull
    | JBool(b: bool)
    | JNum(n: int)
    | JStr(s: string)
    | JArr(items: seq<Json>)
    | JObj(fields: map<string, Json>)

  /** What one call to the model gave: an exception, or a reply text. */
  datatype Attempt = Raised | Replied(text: string)

  /** `PROMPT_TEMPLATE` on the first attempt, `FALLBACK_PROMPT_TEMPLATE` on the second. */
  datatype PromptKind = Primary | Fallback

  /**
   * What a prompt is filled in with; the fallback template has no place for
   * the context, so its context is None.
   */
  datatype Prompt = Prompt(kind: PromptKind, numQuestions: int, topic: Option<string>, context: Option<string>)

  /** One `generate_questions_for_topic` request: how many questions, from which context. */
  datatype TopicCall = TopicCall(numQuestions: int, context: string)

  /** The `topic` value stored in each question: the string, or JSON null for a missing topic. */
  function TopicValue(topic: Option<string>): Json {
    if topic.Some? then JStr(topic.value) else JNull
  }

  /**
   * `q['topic'] = topic` for every q: every item must be an object (any other
   * value raises), and each object gets the key set, overwriting any old one.
   */
  function Tagged(items: seq<Json>, topic: Option<string>): Option<seq<Json>> {
    if forall i :: 0 <= i < |items| ==> items[i].JObj? then
      Some(seq(|items|, i requires 0 <= i < |items| => JObj(items[i].fields["topic" := TopicValue(topic)])))
    else
      None
  }

  /** The tagging loop, stopping at the first item that is not an object. */
  method TagQuestions(items: seq<Json>, topic: Option<string>) returns (r: Option<seq<Json>>)
    ensures r == Tagged(items, topic)
    ensures r.Some? <==> forall i :: 0 <= i < |items| ==> items[i].JObj?
    ensures r.Some? ==>
      && |r.value| == |items|
      && forall i :: 0 <= i < |items| ==>
        && r.value[i].JObj?
        && r.value[i].fields == items[i].fields["topic" := TopicValue(topic)]
  {
    var tagged: seq<Json> := [];
    for i := 0 to |items|
      invariant |tagged| == i
      invariant forall k :: 0 <= k < i ==> items[k].JObj? && tagged[k] == JObj(items[k].fields["topic" := TopicValue(topic)])
    {
      if !items[i].JObj? {
        return None;
      }
      tagged := tagged + [JObj(items[i].fields["topic" := TopicValue(topic)])];
    }
    assert tagged == Tagged(items, topic).value;
    return Some(tagged);
  }

  /** Every item of a successful tagging carries the topic. */
  lemma TaggedAll(items: seq<Json>, topic: Option<string>)
    ensures Tagged(items, topic).Some? ==> forall q :: q in Tagged(items, topic).value ==> TaggedWith(q, topic)
  {
    if Tagged(items, topic).Some? {
      var r := Tagged(items, topic).value;
      forall q | q in r ensures TaggedWith(q, topic) {
        var i :| 0 <= i < |r| && r[i] == q;
        assert q == JObj(items[i].fields["topic" := TopicValue(topic)]);
      }
    }
  }

  /**
   * The list an attempt's reply loads to once cleaned (`load` stands for
   * `json.loads` after `clean_gemini_json_response`), when it is a non-empty
   * list; None when the call or the parse raised or the value is anything else.
   */
  function ParsedList(a: Attempt, load: string -> Option<Json>): Option<seq<Json>> {
    match a
    case Raised => None
    case Replied(text) =>
      var parsed := load(text);
      if parsed.Some? && parsed.value.JArr? && |parsed.value.items| > 0 then Some(parsed.value.items)
      else None
  }

  /** What one attempt yields: the tagged questions, or None when the attempt fails. */
  function AttemptResult(a: Attempt, topic: Option<string>, load: string -> Option<Json>): Option<seq<Json>> {
    var items := ParsedList(a, load);
    if items.Some? then Tagged(items.value, topic) else None
  }

  /** The prompt sent on attempt k (0 or 1). */
  function PromptFor(k: nat, call: TopicCall, topic: Option<string>): Prompt {
    if k == 0 then Prompt(Primary, call.numQuestions, topic, Some(call.context))
    else Prompt(Fallback, call.numQuestions, topic, None)
  }

  /**
   * The questions `generate_questions_for_topic` returns. Under the guard
   * nothing comes back; otherwise the first attempt that yields a tagged
   * list gives that list, which is never empty, and two failed attempts give
   * nothing. Whatever comes back is tagged.
   */
  function GenerateForTopic(call: TopicCall, topic: Option<string>, attempts: seq<Attempt>, load: string -> Option<Json>): (r: seq<Json>)
    requires |attempts| == 2
    ensures call.numQuestions <= 0 ==> r == []
    ensures forall q :: q in r ==> TaggedWith(q, topic)
    ensures AttemptResult(attempts[0], topic, load).None? && AttemptResult(attempts[1], topic, load).None? ==> r == []
    ensures call.numQuestions > 0 && AttemptResult(attempts[0], topic, load).Some? ==>
      r == AttemptResult(attempts[0], topic, load).value && r != []
    ensures call.numQuestions > 0 && AttemptResult(attempts[0], topic, load).None? && AttemptResult(attempts[1], topic, load).Some? ==>
      r == AttemptResult(attempts[1], topic, load).value && r != []
  {
    AttemptTagged(attempts[0], topic, load);
    AttemptTagged(attempts[1], topic, load);
    if call.numQuestions <= 0 then []
    else if AttemptResult(attempts[0], topic, load).Some? then AttemptResult(attempts[0], topic, load).value
    else if AttemptResult(attempts[1], topic, load).Some? then AttemptResult(attempts[1], topic, load).value
    else []
  }

  /** The prompts it sends: none under the guard, a second only after a failed first. */
  function PromptsSent(call: TopicCall, topic: Option<string>, attempts: seq<Attempt>, load: string -> Option<Json>): seq<Prompt>
    requires |attempts| == 2
  {
    if call.numQuestions <= 0 then []
    else if AttemptResult(attempts[0], topic, load).Some? then [PromptFor(0, call, topic)]
    else [PromptFor(0, call, topic), PromptFor(1, call, topic)]
  }

  /** A question as returned: an object whose `topic` is the requested topic. */
  predicate TaggedWith(q: Json, topic: Option<string>) {
    q.JObj? && "topic" in q.fields && q.fields["topic"] == TopicValue(topic)
  }

  lemma AttemptTagged(a: Attempt, topic: Option<string>, load: string -> Option<Json>)
    ensures AttemptResult(a, topic, load).Some? ==> forall q :: q in AttemptResult(a, topic, load).value ==> TaggedWith(q, topic)
  {
    if ParsedList(a, load).Some? {
      TaggedAll(ParsedList(a, load).value, topic);
    }
  }

  /**
   * `generate_questions_for_topic`: at most two attempts; the first that
   * yields a non-empty list of objects returns it with every question tagged.
   */
  method GenerateQuestionsForTopic(call: TopicCall, topic: Option<string>, attempts: seq<Attempt>, load: string -> Option<Json>)
    returns (questions: seq<Json>, prompts: seq<Prompt>)
    requires |attempts| == 2
    ensures questions == GenerateForTopic(call, topic, attempts, load)
    ensures prompts == PromptsSent(call, topic, attempts, load)
  {
    if call.numQuestions <= 0 {
      return [], [];
    }
    prompts := [];
    for attempt := 0 to 2
      invariant prompts == [PromptFor(0, call, topic), PromptFor(1, call, topic)][..attempt]
      invariant attempt >= 1 ==> AttemptResult(attempts[0], topic, load).None?
      invariant attempt == 2 ==> AttemptResult(attempts[1], topic, load).None?
    {
      prompts := prompts + [PromptFor(attempt, call, topic)];
      var items := ParsedList(attempts[attempt], load);
      if items.Some? {
        var tagged := TagQuestions(items.value, topic);
        assert tagged == AttemptResult(attempts[attempt], topic, load);
        if tagged.Some? {
          assert attempt == 0 ==> prompts == [PromptFor(0, call, topic)];
          assert attempt == 1 ==> prompts == [PromptFor(0, call, topic), PromptFor(1, call, topic)];
          return tagged.value, prompts;
        }
      }
    }
    assert prompts == [PromptFor(0, call, topic), PromptFor(1, call, topic)];
    return [], prompts;
  }

  /** `SUBJECT_MAPPING`, in its insertion order. */
  const SubjectMapping: seq<(string, string)> := [
    ("Quantitative Aptitude", "quantitative_aptitude"),
    ("Quantitative Aptitude (Additional)", "quantitative_aptitude_additional"),
    ("Reasoning Ability", "reasoning_ability"),
    ("English Language", "english_language")
  ]

  /** `str.lower()`, with the same ASCII folding as the phrase matching of the cleaner. */
  function Lower(s: string): (r: string)
    ensures |r| == |s|
    ensures forall i :: 0 <= i < |r| ==> !('A' <= r[i] <= 'Z')
    ensures forall i :: 0 <= i < |s| && !('A' <= s[i] <= 'Z') ==> r[i] == s[i]
    ensures forall i :: 0 <= i < |s| && 'A' <= s[i] <= 'Z' ==> r[i] as int == s[i] as int + 32
  {
    seq(|s|, i requires 0 <= i < |s| => ResponseCleaning.Fold(s[i]))
  }

  /** The folder of the first entry from `from` on whose key matches the subject case-insensitively. */
  function FirstMatch(subject: string, from: nat): Option<string>
    requires from <= |SubjectMapping|
    decreases |SubjectMapping| - from
  {
    if from == |SubjectMapping| then None
    else if Lower(SubjectMapping[from].0) == Lower(subject) then Some(SubjectMapping[from].1)
    else FirstMatch(subject, from + 1)
  }

  /**
   * The subject folder: None for a missing or empty subject (`if subject:`
   * is false); a folder found is that of a key equal to the subject up to case.
   */
  function LookupFolder(subject: Option<string>): (r: Option<string>)
    ensures subject.None? || subject.value == [] ==> r.None?
    ensures r.Some? ==>
      exists k :: 0 <= k < |SubjectMapping| && Lower(SubjectMapping[k].0) == Lower(subject.value) && r.value == SubjectMapping[k].1
  {
    if subject.None? || subject.value == [] then None
    else
      FirstMatchMeaning(subject.value, 0);
      FirstMatch(subject.value, 0)
  }

  /** The subject-lookup loop of `generate_test`, leaving at the first match. */
  method FindSubjectFolder(subject: Option<string>) returns (folder: Option<string>)
    ensures folder == LookupFolder(subject)
  {
    folder := None;
    if subject.Some? && subject.value != [] {
      var k := 0;
      while k < |SubjectMapping|
        invariant 0 <= k <= |SubjectMapping|
        invariant FirstMatch(subject.value, 0) == FirstMatch(subject.value, k)
      {
        if Lower(SubjectMapping[k].0) == Lower(subject.value) {
          folder := Some(SubjectMapping[k].1);
          break;
        }
        k := k + 1;
      }
    }
  }

  /**
   * FirstMatch from `from` finds a folder exactly when some later key matches,
   * and then it is the folder of the earliest such key.
   */
  lemma {:induction false} FirstMatchMeaning(subject: string, from: nat)
    requires from <= |SubjectMapping|
    ensures FirstMatch(subject, from).Some? <==>
      exists k :: from <= k < |SubjectMapping| && Lower(SubjectMapping[k].0) == Lower(subject)
    ensures FirstMatch(subject, from).Some? ==>
      exists k :: from <= k < |SubjectMapping| && Lower(SubjectMapping[k].0) == Lower(subject)
        && FirstMatch(subject, from).value == SubjectMapping[k].1
        && forall j :: from <= j < k ==> Lower(SubjectMapping[j].0) != Lower(subject)
    decreases |SubjectMapping| - from
  {
    if from < |SubjectMapping| && Lower(SubjectMapping[from].0) != Lower(subject) {
      FirstMatchMeaning(subject, from + 1);
    }
  }

  /**
   * The lookup yields the folder of the first key equal to the subject up to
   * case, and None exactly when no key is.
   */
  lemma LookupMeaning(subject: string)
    requires subject != []
    ensures LookupFolder(Some(subject)).None? <==>
      forall k :: 0 <= k < |SubjectMapping| ==> Lower(SubjectMapping[k].0) != Lower(subject)
    ensures LookupFolder(Some(subject)).Some? ==>
      exists k :: 0 <= k < |SubjectMapping| && Lower(SubjectMapping[k].0) == Lower(subject)
        && LookupFolder(Some(subject)).value == SubjectMapping[k].1
        && forall j :: 0 <= j < k ==> Lower(SubjectMapping[j].0) != Lower(subject)
  {
    FirstMatchMeaning(subject, 0);
  }

  /** Two subjects that differ only in letter case find the same folder. */
  lemma {:induction false} LookupIgnoresCase(a: string, b: string)
    requires Lower(a) == Lower(b)
    ensures LookupFolder(Some(a)) == LookupFolder(Some(b))
  {
    assert a == [] <==> b == [];
    if a != [] {
      FirstMatchSame(a, b, 0);
    }
  }

  lemma {:induction false} FirstMatchSame(a: string, b: string, from: nat)
    requires Lower(a) == Lower(b) && from <= |SubjectMapping|
    ensures FirstMatch(a, from) == FirstMatch(b, from)
    decreases |SubjectMapping| - from
  {
    if from < |SubjectMapping| {
      FirstMatchSame(a, b, from + 1);
    }
  }

  /**
   * A subject equal to one of the keys up to case finds that key's folder:
   * no two keys of the mapping are equal up to case.
   */
  lemma KeyFindsItsFolder(subject: string, k: nat)
    requires k < |SubjectMapping| && Lower(subject) == Lower(SubjectMapping[k].0)
    ensures LookupFolder(Some(subject)) == Some(SubjectMapping[k].1)
  {
    assert |subject| == |SubjectMapping[k].0|;
    LookupMeaning(subject);
    var j :| 0 <= j < |SubjectMapping| && Lower(SubjectMapping[j].0) == Lower(subject)
      && LookupFolder(Some(subject)).value == SubjectMapping[j].1
      && forall i :: 0 <= i < j ==> Lower(SubjectMapping[i].0) != Lower(subject);
    assert |SubjectMapping[j].0| == |SubjectMapping[k].0|;
  }

  /**
   * `context_text` and `context_available`: the topic file's text exactly
   * when a folder and a topic are named and that file can be read.
   */
  function ContextFor(folder: Option<string>, topic: Option<string>, files: map<(string, string), string>): (r: Option<string>)
    ensures folder.None? || topic.None? ==> r.None?
    ensures folder.Some? && folder.value != [] && topic.Some? && topic.value != [] && (folder.value, topic.value) in files ==> r.Some?
    ensures r.Some? ==> (folder.value, topic.value) in files && r.value == files[(folder.value, topic.value)]
  {
    if folder.Some? && folder.value != [] && topic.Some? && topic.value != [] && (folder.value, topic.value) in files then
      Some(files[(folder.value, topic.value)])
    else
      None
  }

  const NoContext := "No specific context provided."
  const GeneralContext := "General knowledge based."

  /**
   * The requests `generate_test` makes: for a topic-wise test with context,
   * the context share and the general share, each only when positive;
   * otherwise one request for all questions.
   */
  function PlannedCalls(numQuestions: int, contextShare: int, split: bool, contextText: string): (r: seq<TopicCall>)
    ensures !split ==> |r| == 1 && r[0].numQuestions == numQuestions
    ensures split ==> |r| <= 2 && forall i :: 0 <= i < |r| ==> r[i].numQuestions > 0
    ensures forall i :: 0 <= i < |r| ==> r[i].context == contextText || r[i].context == GeneralContext
  {
    if split then
      var fromGeneral := numQuestions - contextShare;
      (if contextShare > 0 then [TopicCall(contextShare, contextText)] else [])
      + (if fromGeneral > 0 then [TopicCall(fromGeneral, GeneralContext)] else [])
    else
      [TopicCall(numQuestions, contextText)]
  }

  function TotalRequested(calls: seq<TopicCall>): int {
    if calls == [] then 0 else TotalRequested(calls[..|calls| - 1]) + calls[|calls| - 1].numQuestions
  }

  /**
   * For a non-negative count and a context share within [0, n], the requests
   * ask for exactly n questions in total, each for a positive number; the
   * unsplit request asks for all n at once.
   */
  lemma SplitPartition(numQuestions: int, contextShare: int, contextText: string)
    requires 0 <= contextShare <= numQuestions
    ensures TotalRequested(PlannedCalls(numQuestions, contextShare, true, contextText)) == numQuestions
    ensures forall c :: c in PlannedCalls(numQuestions, contextShare, true, contextText) ==> c.numQuestions > 0
    ensures contextShare > 0 ==>
      PlannedCalls(numQuestions, contextShare, true, contextText)[0] == TopicCall(contextShare, contextText)
    ensures PlannedCalls(numQuestions, contextShare, false, contextText) == [TopicCall(numQuestions, contextText)]
  {
    var fromContext := TopicCall(contextShare, contextText);
    var fromGeneral := TopicCall(numQuestions - contextShare, GeneralContext);
    TotalOfFew(fromContext, fromGeneral);
    if contextShare > 0 && fromGeneral.numQuestions > 0 {
      assert PlannedCalls(numQuestions, contextShare, true, contextText) == [fromContext, fromGeneral];
    } else if contextShare > 0 {
      assert PlannedCalls(numQuestions, contextShare, true, contextText) == [fromContext];
    } else if fromGeneral.numQuestions > 0 {
      assert PlannedCalls(numQuestions, contextShare, true, contextText) == [fromGeneral];
    }
  }

  /** The totals of the request lists PlannedCalls can produce. */
  lemma TotalOfFew(c: TopicCall, d: TopicCall)
    ensures TotalRequested([]) == 0
    ensures TotalRequested([c]) == c.numQuestions
    ensures TotalRequested([c, d]) == c.numQuestions + d.numQuestions
  {
    assert [c][..0] == [];
    assert [c, d][..1] == [c];
  }

  /** The reply `generate_test` sends. */
  datatype Response = Success(questions: seq<Json>) | Failure(status: int, error: string)

  const NotConfigured := "Gemini API is not configured."

  /** The f-string rendering of the topic: the text, or `None`. */
  function TopicText(topic: Option<string>): string {
    if topic.Some? then topic.value else "None"
  }

  function FailedMessage(topic: Option<string>): string {
    "Failed to generate questions for '" + TopicText(topic) + "'."
  }

  /**
   * All questions the planned calls return, in call order (the `extend`s);
   * every one of them carries the requested topic.
   */
  function Gathered(calls: seq<TopicCall>, topic: Option<string>, attempts: seq<seq<Attempt>>, load: string -> Option<Json>): (r: seq<Json>)
    requires |calls| <= |attempts|
    requires forall k :: 0 <= k < |attempts| ==> |attempts[k]| == 2
    ensures forall q :: q in r ==> TaggedWith(q, topic)
  {
    if calls == [] then []
    else
      var n := |calls| - 1;
      Gathered(calls[..n], topic, attempts, load) + GenerateForTopic(calls[n], topic, attempts[n], load)
  }

  /** One more request adds its questions at the end. */
  lemma GatheredAppend(calls: seq<TopicCall>, c: TopicCall, topic: Option<string>, attempts: seq<seq<Attempt>>, load: string -> Option<Json>)
    requires |calls| < |attempts|
    requires forall k :: 0 <= k < |attempts| ==> |attempts[k]| == 2
    ensures Gathered(calls + [c], topic, attempts, load)
      == Gathered(calls, topic, attempts, load) + GenerateForTopic(c, topic, attempts[|calls|], load)
  {
    assert (calls + [c])[..|calls|] == calls;
  }


  /**
   * The context step of `generate_test`: look up the subject's folder and
   * read the topic's file when there is one.
   */
  method LoadContext(subject: Option<string>, topic: Option<string>, files: map<(string, string), string>)
    returns (contextText: string, contextAvailable: bool)
    ensures contextAvailable == ContextFor(LookupFolder(subject), topic, files).Some?
    ensures contextText == if contextAvailable then ContextFor(LookupFolder(subject), topic, files).value else NoContext
  {
    contextText := NoContext;
    var folder := FindSubjectFolder(subject);
    contextAvailable := false;
    if folder.Some? && folder.value != [] && topic.Some? && topic.value != [] && (folder.value, topic.value) in files {
      contextText := files[(folder.value, topic.value)];
      contextAvailable := true;
    }
  }

  /**
   * The collecting step of `generate_test`: the planned requests, made in
   * order, their questions appended (the `extend`s).
   */
  method CollectQuestions(
    topic: Option<string>, numQuestions: int, contextShare: int, split: bool, contextText: string,
    attempts: seq<seq<Attempt>>, load: string -> Option<Json>)
    returns (allQuestions: seq<Json>, calls: seq<TopicCall>)
    requires |attempts| == 2 && forall k :: 0 <= k < 2 ==> |attempts[k]| == 2
    ensures calls == PlannedCalls(numQuestions, contextShare, split, contextText)
    ensures allQuestions == Gathered(calls, topic, attempts, load)
  {
    allQuestions := [];
    calls := [];
    if split {
      var fromContext := contextShare;
      var fromGeneral := numQuestions - fromContext;
      if fromContext > 0 {
        var qs, _ := GenerateQuestionsForTopic(TopicCall(fromContext, contextText), topic, attempts[|calls|], load);
        GatheredAppend(calls, TopicCall(fromContext, contextText), topic, attempts, load);
        calls := calls + [TopicCall(fromContext, contextText)];
        allQuestions := allQuestions + qs;
      }
      if fromGeneral > 0 {
        var qs, _ := GenerateQuestionsForTopic(TopicCall(fromGeneral, GeneralContext), topic, attempts[|calls|], load);
        GatheredAppend(calls, TopicCall(fromGeneral, GeneralContext), topic, attempts, load);
        calls := calls + [TopicCall(fromGeneral, GeneralContext)];
        allQuestions := allQuestions + qs;
      }
    } else {
      var qs, _ := GenerateQuestionsForTopic(TopicCall(numQuestions, contextText), topic, attempts[0], load);
      GatheredAppend([], TopicCall(numQuestions, contextText), topic, attempts, load);
      calls := [TopicCall(numQuestions, contextText)];
      allQuestions := qs;
    }
  }

  /**
   * `generate_test`. `contextShare` stands for `math.ceil(num_questions * 0.7)`,
   * which lies between 0 and n; `files` holds the readable topic files by
   * (folder, topic); `attempts[k]` are the model's replies to request k.
   */
  method GenerateTest(
    modelConfigured: bool, subject: Option<string>, topic: Option<string>, numQuestions: int, testType: string,
    contextShare: int, files: map<(string, string), string>, attempts: seq<seq<Attempt>>,
    load: string -> Option<Json>, shuffle: seq<Json> -> seq<Json>)
    returns (r: Response, calls: seq<TopicCall>)
    requires if numQuestions >= 0 then 0 <= contextShare <= numQuestions else numQuestions <= contextShare <= 0
    requires |attempts| == 2 && forall k :: 0 <= k < 2 ==> |attempts[k]| == 2
    requires IsShuffle(shuffle)
    ensures !modelConfigured ==> r == Failure(500, NotConfigured) && calls == []
    ensures modelConfigured ==>
      var context := ContextFor(LookupFolder(subject), topic, files);
      var contextText := if context.Some? then context.value else NoContext;
      calls == PlannedCalls(numQuestions, contextShare, testType == "topic-wise" && context.Some?, contextText)
    ensures modelConfigured ==>
      var pool := Gathered(calls, topic, attempts, load);
      && (pool == [] ==> r == Failure(500, FailedMessage(topic)))
      && (pool != [] ==> r == Success(shuffle(pool)))
    ensures r.Success? ==> |r.questions| > 0 && forall q :: q in r.questions ==> TaggedWith(q, topic)
  {
    if !modelConfigured {
      return Failure(500, NotConfigured), [];
    }
    var contextText, contextAvailable := LoadContext(subject, topic, files);
    var allQuestions;
    allQuestions, calls := CollectQuestions(
      topic, numQuestions, contextShare, testType == "topic-wise" && contextAvailable, contextText, attempts, load);
    assert allQuestions == Gathered(calls, topic, attempts, load);

    var shuffled := shuffle(allQuestions);
    ShuffleKeepsLength(shuffle, allQuestions);
    if shuffled == [] {
      return Failure(500, FailedMessage(topic)), calls;
    }
    forall q | q in shuffled ensures TaggedWith(q, topic) {
      assert multiset(shuffled) == multiset(allQuestions);
      assert q in multiset(shuffled);
    }
    r := Success(shuffled);
  }
}

=== FILE: Loading.dfy ===
/**
 * The loading indicator shown while questions are generated (static/script.js):
 * the "Estimated Time Remaining" countdown of `startLoadingTimer` and the
 * simulated progress counter each generation flow runs beside it. Each
 * interval callback is a method call; clearing both intervals is `Stop`.
 */
module Loading {
  import opened Wrappers
  import opened TimeFormat

  /** `estimatedTimePerQuestion`: seconds budgeted per question (or per topic in a mock). */
  const EstimatedTimePerItem: nat := 4

  /** Math.ceil(estimatedTimePerQuestion * n) for a whole number n of questions or topics. */
  function EstimatedSeconds(items: nat): (r: nat)
    ensures r == 0 <==> items == 0
    ensures r / EstimatedTimePerItem == items
    ensures r % EstimatedTimePerItem == 0
  {
    EstimatedTimePerItem * items
  }

  /** The countdown line while time remains. */
  function RemainingText(seconds: nat): string {
    "Estimated Time Remaining: " + FormatTime(seconds)
  }

  /** The countdown text after k one-second ticks of a countdown from `estimate`. */
  function CountdownText(estimate: nat, k: nat): string {
    if k <= estimate then RemainingText(estimate - k)
    else "Finishing up..."
  }

  /** Once the countdown has passed zero it keeps saying "Finishing up..." and never shows a time again. */
  lemma CountdownSettles(estimate: nat, k: nat, j: nat)
    requires estimate < k <= j
    ensures CountdownText(estimate, j) == CountdownText(estimate, k) == "Finishing up..."
  {
  }

  /** Before zero the countdown shows exactly the estimate minus the ticks elapsed. */
  lemma CountdownShowsRemaining(estimate: nat, k: nat)
    requires k <= estimate
    ensures |CountdownText(estimate, k)| >= 26
    ensures ParseClock(CountdownText(estimate, k)[26..]) == Some(estimate - k)
  {
    var prefix := "Estimated Time Remaining: ";
    assert |prefix| == 26;
    assert CountdownText(estimate, k)[26..] == FormatTime(estimate - k);
    FormatTimeRoundTrip(estimate - k);
  }

  /** How often each interval fires while one request is outstanding. */
  datatype Wait = Wait(countdownTicks: nat, progressTicks: nat)

  /** The countdown firings over a run of requests. */
  function CountdownWaits(waits: seq<Wait>): nat {
    if waits == [] then 0 else CountdownWaits(waits[..|waits| - 1]) + waits[|waits| - 1].countdownTicks
  }

  /** The progress firings over a run of requests. */
  function ProgressWaits(waits: seq<Wait>): nat {
    if waits == [] then 0 else ProgressWaits(waits[..|waits| - 1]) + waits[|waits| - 1].progressTicks
  }

  class LoadingIndicator {
    /** `remaining` of startLoadingTimer. */
    var remaining: int
    var countdownText: string
    var countdownActive: bool
    /** The progress simulation's `currentInterval` and `totalIntervals`. */
    var currentInterval: nat
    const totalIntervals: nat
    var progressActive: bool
    /** `progressBar.style.width = '100%'` has been done. */
    var barFull: bool

    ghost const estimate: nat
    ghost var countdownTicks: nat
    ghost var progressTicks: nat

    ghost predicate Valid()
      reads this`remaining, this`countdownText, this`countdownTicks, this`currentInterval, this`progressTicks
    {
      && remaining == estimate - countdownTicks
      && countdownText == CountdownText(estimate, countdownTicks)
      && currentInterval == if progressTicks <= totalIntervals then progressTicks else totalIntervals
    }

    /**
     * startLoadingTimer(estimatedTotalSeconds) together with the progress
     * interval; the caller computes `totalIntervals` from its interval length.
     */
    constructor (estimatedTotalSeconds: nat, intervalCount: nat)
      ensures Valid()
      ensures estimate == estimatedTotalSeconds && countdownTicks == 0 && progressTicks == 0
      ensures remaining == estimatedTotalSeconds
      ensures countdownText == RemainingText(estimatedTotalSeconds)
      ensures currentInterval == 0 && totalIntervals == intervalCount
      ensures countdownActive && progressActive && !barFull
    {
      remaining := estimatedTotalSeconds;
      countdownText := RemainingText(estimatedTotalSeconds);
      countdownActive := true;
      currentInterval := 0;
      totalIntervals := intervalCount;
      progressActive := true;
      barFull := false;
      estimate := estimatedTotalSeconds;
      countdownTicks := 0;
      progressTicks := 0;
    }

    /** One firing of the one-second countdown interval. */
    method CountdownTick()
      requires Valid() && countdownActive
      modifies this`remaining, this`countdownText, this`countdownTicks
      ensures Valid()
      ensures countdownTicks == old(countdownTicks) + 1
      ensures remaining == old(remaining) - 1
      ensures countdownText == if remaining >= 0 then RemainingText(remaining)
                               else "Finishing up..."
    {
      remaining := remaining - 1;
      countdownTicks := countdownTicks + 1;
      if remaining >= 0 {
        countdownText := RemainingText(remaining);
      } else {
        countdownText := "Finishing up...";
      }
    }

    /** One firing of the progress interval: the counter climbs to totalIntervals and stops there. */
    method ProgressTick()
      requires Valid() && progressActive
      modifies this`currentInterval, this`progressTicks
      ensures Valid()
      ensures progressTicks == old(progressTicks) + 1
      ensures currentInterval == if old(currentInterval) < totalIntervals then old(currentInterval) + 1
                                 else old(currentInterval)
      ensures currentInterval <= totalIntervals
    {
      if currentInterval < totalIntervals {
        currentInterval := currentInterval + 1;
      }
      progressTicks := progressTicks + 1;
    }

    /**
     * The intervals firing while a request is outstanding. The two callbacks
     * touch disjoint state, so the order of their firings does not matter.
     */
    method Elapse(w: Wait)
      requires Valid() && countdownActive && progressActive
      modifies this`remaining, this`countdownText, this`countdownTicks, this`currentInterval, this`progressTicks
      ensures Valid()
      ensures countdownTicks == old(countdownTicks) + w.countdownTicks
      ensures progressTicks == old(progressTicks) + w.progressTicks
    {
      var i := 0;
      while i < w.countdownTicks
        invariant 0 <= i <= w.countdownTicks
        invariant Valid() && countdownTicks == old(countdownTicks) + i
        invariant progressTicks == old(progressTicks)
      {
        CountdownTick();
        i := i + 1;
      }
      var j := 0;
      while j < w.progressTicks
        invariant 0 <= j <= w.progressTicks
        invariant Valid() && progressTicks == old(progressTicks) + j
        invariant countdownTicks == old(countdownTicks) + w.countdownTicks
      {
        ProgressTick();
        j := j + 1;
      }
    }

    /** clearInterval on both intervals; no callback fires afterwards. */
    method Stop()
      modifies this`countdownActive, this`progressActive
      ensures !countdownActive && !progressActive
    {
      countdownActive := false;
      progressActive := false;
    }

    /** `progressBar.style.width = '100%'`. */
    method FillBar()
      modifies this`barFull
      ensures barFull
    {
      barFull := true;
    }
  }
}

=== FILE: MockAssembly.dfy ===
/**
 * The assembly logic of `generateSubjectMockTest` in static/script.js: how
 * many questions each topic is asked for, the pool the sequential requests
 * build, and the shuffled, truncated list the session runs on.
 */
module MockAssembly {
  import opened Questions
  import opened Shuffling

  /**
   * Math.max(1, Math.ceil(totalQuestions / topicCount)): the least count of
   * at least one that, asked of every topic, covers the total.
   */
  function QuestionsPerTopic(totalQuestions: int, topicCount: nat): (r: int)
    requires topicCount > 0
    ensures r >= 1
    ensures r * topicCount >= totalQuestions
    ensures r == 1 || (r - 1) * topicCount < totalQuestions
  {
    var q := (-totalQuestions) / topicCount;
    var rem := (-totalQuestions) % topicCount;
    assert -totalQuestions == q * topicCount + rem && 0 <= rem < topicCount;
    assert (-q) * topicCount == totalQuestions + rem;
    assert (-q - 1) * topicCount == totalQuestions + rem - topicCount;
    if -q >= 1 then -q else 1
  }

  /** The request the mock loop sends for one topic. */
  function MockRequest(subject: string, unit: string, topic: string, perTopic: int): GenerateRequest {
    GenerateRequest(subject, unit, topic, perTopic, "mock")
  }

  /**
   * The accumulated `testQuestions` after the loop has handled `results`:
   * each successful topic's list pushed in topic order, failed topics skipped.
   */
  function Pool(results: seq<Fetch<seq<Question>>>): seq<Question> {
    if results == [] then []
    else
      var last := results[|results| - 1];
      Pool(results[..|results| - 1]) + (if last.Ok? then last.value else [])
  }

  /** Accumulation is sequential: the pool of two runs of topics is the two pools concatenated. */
  lemma {:induction false} PoolAppend(a: seq<Fetch<seq<Question>>>, b: seq<Fetch<seq<Question>>>)
    ensures Pool(a + b) == Pool(a) + Pool(b)
    decreases |b|
  {
    if b == [] {
      assert a + b == a;
    } else {
      var ab := a + b;
      assert ab[..|ab| - 1] == a + b[..|b| - 1];
      assert ab[|ab| - 1] == b[|b| - 1];
      PoolAppend(a, b[..|b| - 1]);
    }
  }

  /** A failed topic contributes nothing; the other topics keep their order around it. */
  lemma FailedTopicSkipped(before: seq<Fetch<seq<Question>>>, message: string, after: seq<Fetch<seq<Question>>>)
    ensures Pool(before + [Failed(message)] + after) == Pool(before) + Pool(after)
  {
    var f: seq<Fetch<seq<Question>>> := [Failed(message)];
    assert f[..0] == [];
    assert Pool(f) == [];
    PoolAppend(before, f);
    PoolAppend(before + f, after);
  }

  /** Every pooled question came from some topic whose request succeeded. */
  lemma {:induction false} PoolFromSuccesses(results: seq<Fetch<seq<Question>>>, q: Question)
    requires q in Pool(results)
    ensures exists i :: 0 <= i < |results| && results[i].Ok? && q in results[i].value
  {
    var n := |results|;
    var last := results[n - 1];
    if q in Pool(results[..n - 1]) {
      PoolFromSuccesses(results[..n - 1], q);
      var i :| 0 <= i < n - 1 && results[..n - 1][i].Ok? && q in results[..n - 1][i].value;
      assert results[i] == results[..n - 1][i];
    } else {
      assert results[n - 1].Ok? && q in results[n - 1].value;
    }
  }

  /** The pool's size is the sum of the successful topics' yields. */
  function Yield(results: seq<Fetch<seq<Question>>>): nat {
    if results == [] then 0
    else
      var last := results[|results| - 1];
      Yield(results[..|results| - 1]) + (if last.Ok? then |last.value| else 0)
  }

  lemma {:induction false} PoolSize(results: seq<Fetch<seq<Question>>>)
    ensures |Pool(results)| == Yield(results)
  {
    if results != [] {
      PoolSize(results[..|results| - 1]);
    }
  }

  /** `slice(0, totalQuestions)`: the first min(n, total) questions of the shuffled pool, in its order. */
  function Sample(shuffled: seq<Question>, totalQuestions: nat): (r: seq<Question>)
    ensures |r| == if |shuffled| <= totalQuestions then |shuffled| else totalQuestions
    ensures r == shuffled[..|r|]
  {
    if |shuffled| <= totalQuestions then shuffled else shuffled[..totalQuestions]
  }

  /**
   * The final list has min(|pool|, total) questions, never more than asked
   * for, and each of them is drawn from the pool (as a sub-multiset).
   */
  lemma SampleOfShuffle(pool: seq<Question>, shuffle: seq<Question> -> seq<Question>, totalQuestions: nat)
    requires IsShuffle(shuffle)
    ensures var r := Sample(shuffle(pool), totalQuestions);
      && |r| == (if |pool| <= totalQuestions then |pool| else totalQuestions)
      && multiset(r) <= multiset(pool)
  {
    var s := shuffle(pool);
    assert multiset(s) == multiset(pool);
    ShuffleKeepsLength(shuffle, pool);
    if |s| > totalQuestions {
      assert s == s[..totalQuestions] + s[totalQuestions..];
      assert multiset(s) == multiset(s[..totalQuestions]) + multiset(s[totalQuestions..]);
    }
  }
}

=== FILE: Questions.dfy ===
/** The values the client engine of static/script.js works on. */
module Questions {
  /**
   * One question as /api/generate-test returns it: `question`, `options`,
   * `correct_answer_index`, `explanation` and `topic`.
   */
  datatype Question = Question(
    text: string,
    options: seq<string>,
    correctAnswerIndex: int,
    explanation: string,
    topic: string)

  /**
   * The outcome of one `fetch` followed by `handleApiResponse`: the parsed
   * body, or the message of the error it throws (a non-2xx status or a
   * transport failure).
   */
  datatype Fetch<T> = Ok(value: T) | Failed(message: string)

  /** The JSON body of a POST to /api/generate-test. */
  datatype GenerateRequest = GenerateRequest(
    subject: string,
    unit: string,
    topic: string,
    numQuestions: int,
    testType: string)
}

=== FILE: Session.dfy ===
/**
 * The test-session engine of static/script.js: the `appState` object and
 * the functions that update it. Browser events (a click, an interval or
 * timeout firing, the answer to `confirm`) are explicit method calls or
 * parameters; `Date.now()` is the `now` parameter; a network round trip is
 * its outcome, given as a `Fetch`.
 */
module Session {
  import opened Wrappers
  import opened Questions
  import opened TimeFormat
  import opened TopicPaging
  import opened Loading
  import opened MockAssembly
  import opened Shuffling
  import opened SessionViews

  const ModeSelectionStep := "step-mode-selection"
  const TopicStep := "step-topic"

  /** The keys of `uiSteps`. */
  const StepIds: set<string> := {ModeSelectionStep, "step-subject", TopicStep, "step-config"}

  /** Which of the three screens is not hidden. */
  datatype Screen = SelectionScreen | TestScreen | ResultsScreen

  /** How a generation flow ended: a running test, a page reload, or the exception of displayQuestion(0) on an empty list. */
  datatype Launch = Started | Reloaded | Faulted

  /** calculateAndShowResults' loop: the number of questions answered with their key. */
  method CountScore(questions: seq<Question>, answers: array<Answer>) returns (score: nat)
    requires answers.Length == |questions|
    ensures score == Score(questions, answers[..])
  {
    score := 0;
    var i := 0;
    while i < |questions|
      invariant 0 <= i <= |questions|
      invariant score == Score(questions[..i], answers[..i])
    {
      assert questions[..i + 1][..i] == questions[..i];
      assert answers[..i + 1][..i] == answers[..i];
      if IsCorrect(questions[i], answers[i]) {
        score := score + 1;
      }
      i := i + 1;
    }
    assert questions[..i] == questions && answers[..i] == answers[..];
  }

  class AppState {
    var currentUiStep: string
    var visibleSteps: set<string>
    var currentTopicPage: nat
    var screen: Screen
    var testQuestions: seq<Question>
    var userAnswers: array<Answer>
    var currentQuestionIndex: int
    var currentReviewIndex: int
    /** `appState.timerInterval` is set and not cleared. */
    var timerActive: bool
    /** The `timer` variable of the running startTimer callback. */
    var timer: int
    var isPaused: bool
    var testStartTime: int
    var testEndTime: int
    /** 300 ms auto-advance callbacks scheduled by selectOption and not yet fired. */
    var pendingAdvances: nat

    /** The duration startTimer was given, and the unpaused ticks since. */
    ghost var timerDuration: nat
    ghost var unpausedTicks: nat

    /** A test is on: its questions, one answer slot each, a valid current index, a timer counting down. */
    ghost predicate InTest()
      reads this, userAnswers
    {
      && |testQuestions| > 0
      && userAnswers.Length == |testQuestions|
      && 0 <= currentQuestionIndex < |testQuestions|
      && (timerActive ==> 0 <= timer == timerDuration - unpausedTicks)
    }

    /** The review page is a valid index too. */
    ghost predicate Reviewing()
      reads this, userAnswers
    {
      InTest() && 0 <= currentReviewIndex < |testQuestions|
    }

    /** The state of a freshly loaded page, after initializeApp. */
    ghost predicate Initial()
      reads this
    {
      && currentUiStep == ModeSelectionStep && visibleSteps == {ModeSelectionStep}
      && currentTopicPage == 0 && screen == SelectionScreen
      && testQuestions == [] && userAnswers.Length == 0
      && currentQuestionIndex == 0 && currentReviewIndex == 0
      && !timerActive && !isPaused && testStartTime == 0 && testEndTime == 0
      && pendingAdvances == 0
    }

    /** renderTest has just run on a non-empty list: all answers null, question 0 shown, the countdown at its start. */
    ghost predicate JustStarted(durationInSeconds: nat, now: int)
      reads this, userAnswers
    {
      && InTest() && screen == TestScreen
      && (forall i :: 0 <= i < userAnswers.Length ==> userAnswers[i] == None)
      && currentQuestionIndex == 0 && !isPaused
      && timerActive && timer == durationInSeconds && timerDuration == durationInSeconds && unpausedTicks == 0
      && testStartTime == now
    }

    /** Page load: the initial `appState`, then initializeApp shows the mode-selection step. */
    constructor ()
      ensures Initial()
    {
      currentUiStep := ModeSelectionStep;
      visibleSteps := {ModeSelectionStep};
      currentTopicPage := 0;
      screen := SelectionScreen;
      testQuestions := [];
      userAnswers := new Answer[0];
      currentQuestionIndex := 0;
      currentReviewIndex := 0;
      timerActive := false;
      timer := 0;
      isPaused := false;
      testStartTime := 0;
      testEndTime := 0;
      pendingAdvances := 0;
      timerDuration := 0;
      unpausedTicks := 0;
    }

    /** `location.reload()`: every interval and timeout is gone and the page starts over. */
    method Reload()
      modifies this
      ensures Initial()
    {
      ResetScreens();
      ResetTest();
      ResetClock();
    }

    /** The page's steps and screens as first loaded. */
    method ResetScreens()
      modifies this`currentUiStep, this`visibleSteps, this`currentTopicPage, this`screen
      ensures currentUiStep == ModeSelectionStep && visibleSteps == {ModeSelectionStep}
      ensures currentTopicPage == 0 && screen == SelectionScreen
    {
      currentUiStep, visibleSteps, currentTopicPage, screen := ModeSelectionStep, {ModeSelectionStep}, 0, SelectionScreen;
    }

    /** No questions, no answers, both indices at 0, no pending advance. */
    method ResetTest()
      modifies this`testQuestions, this`userAnswers, this`currentQuestionIndex, this`currentReviewIndex, this`pendingAdvances
      ensures testQuestions == [] && userAnswers.Length == 0
      ensures currentQuestionIndex == 0 && currentReviewIndex == 0 && pendingAdvances == 0
    {
      var none := new Answer[0];
      testQuestions, userAnswers, currentQuestionIndex, currentReviewIndex, pendingAdvances := [], none, 0, 0, 0;
    }

    /** No timer, not paused, no recorded times. */
    method ResetClock()
      modifies this`timerActive, this`timer, this`isPaused, this`testStartTime, this`testEndTime
      modifies this`timerDuration, this`unpausedTicks
      ensures !timerActive && timer == 0 && !isPaused && testStartTime == 0 && testEndTime == 0
      ensures timerDuration == 0 && unpausedTicks == 0
    {
      timerActive, timer, isPaused, testStartTime, testEndTime := false, 0, false, 0, 0;
      timerDuration, unpausedTicks := 0, 0;
    }

    /** Shows only the named step; an unknown name hides all steps and keeps currentUiStep. */
    method NavigateToStep(stepId: string)
      modifies this`visibleSteps, this`currentUiStep
      ensures visibleSteps == if stepId in StepIds then {stepId} else {}
      ensures currentUiStep == if stepId in StepIds then stepId else old(currentUiStep)
    {
      visibleSteps := {};
      if stepId in StepIds {
        visibleSteps := {stepId};
        currentUiStep := stepId;
      }
    }

    /** displayTopics: back to the first page of the unit's topics, on the topic step. */
    method DisplayTopics(allTopics: seq<string>) returns (page: TopicPage)
      modifies this`currentTopicPage, this`visibleSteps, this`currentUiStep
      ensures currentTopicPage == 0 && page == RenderTopicsPage(allTopics, 0)
      ensures currentUiStep == TopicStep && visibleSteps == {TopicStep}
    {
      currentTopicPage := 0;
      page := RenderTopicsPage(allTopics, currentTopicPage);
      NavigateToStep(TopicStep);
    }

    /** The "Next" topics button, present only when the page shows it. */
    method NextTopicsPage(allTopics: seq<string>) returns (page: TopicPage)
      requires RenderTopicsPage(allTopics, currentTopicPage).Page?
      requires RenderTopicsPage(allTopics, currentTopicPage).showNext
      modifies this`currentTopicPage
      ensures currentTopicPage == old(currentTopicPage) + 1
      ensures page == RenderTopicsPage(allTopics, currentTopicPage)
      ensures page.Page? && |page.topics| >= 1 && page.showPrev
    {
      NextPageNonEmpty(allTopics, currentTopicPage);
      currentTopicPage := currentTopicPage + 1;
      page := RenderTopicsPage(allTopics, currentTopicPage);
    }

    /** The "Previous" topics button, present only when the page shows it. */
    method PrevTopicsPage(allTopics: seq<string>) returns (page: TopicPage)
      requires RenderTopicsPage(allTopics, currentTopicPage).Page?
      requires RenderTopicsPage(allTopics, currentTopicPage).showPrev
      modifies this`currentTopicPage
      ensures currentTopicPage == old(currentTopicPage) - 1
      ensures page == RenderTopicsPage(allTopics, currentTopicPage)
    {
      currentTopicPage := currentTopicPage - 1;
      page := RenderTopicsPage(allTopics, currentTopicPage);
    }

    /**
     * displayQuestion: the caller supplies a valid index. While paused
     * nothing changes and nothing is rendered.
     */
    method DisplayQuestion(index: int) returns (view: Option<QuestionView>)
      requires userAnswers.Length == |testQuestions| && 0 <= index < |testQuestions|
      modifies this`currentQuestionIndex
      ensures currentQuestionIndex == if isPaused then old(currentQuestionIndex) else index
      ensures view == if isPaused then None else Some(RenderQuestion(testQuestions, userAnswers[..], index))
    {
      if isPaused {
        return None;
      }
      currentQuestionIndex := index;
      view := Some(RenderQuestion(testQuestions, userAnswers[..], index));
    }

    /**
     * selectOption: while paused nothing changes. Otherwise only the current
     * question's answer is written, and an auto-advance is scheduled exactly
     * when that answer was null before.
     */
    method SelectOption(optionIndex: nat) returns (view: Option<QuestionView>)
      requires InTest()
      modifies userAnswers, this`pendingAdvances, this`currentQuestionIndex
      ensures InTest() && currentQuestionIndex == old(currentQuestionIndex)
      ensures old(isPaused) ==> view == None && userAnswers[..] == old(userAnswers[..])
                                && pendingAdvances == old(pendingAdvances)
      ensures !old(isPaused) ==>
        && userAnswers[..] == old(userAnswers[..])[currentQuestionIndex := Some(optionIndex)]
        && pendingAdvances == old(pendingAdvances) + (if old(userAnswers[currentQuestionIndex]) == None then 1 else 0)
        && view == Some(RenderQuestion(testQuestions, userAnswers[..], currentQuestionIndex))
    {
      if isPaused {
        return None;
      }
      var oldAnswer := userAnswers[currentQuestionIndex];
      userAnswers[currentQuestionIndex] := Some(optionIndex);
      if oldAnswer == None {
        pendingAdvances := pendingAdvances + 1;
      }
      view := DisplayQuestion(currentQuestionIndex);
    }

    /** showNextQuestion: one step forward unless at the last question (and nothing while paused). */
    method ShowNextQuestion() returns (view: Option<QuestionView>)
      requires InTest()
      modifies this`currentQuestionIndex
      ensures InTest()
      ensures currentQuestionIndex == if isPaused then old(currentQuestionIndex)
                                     else NextIndex(old(currentQuestionIndex), |testQuestions|)
      ensures view.Some? <==> !isPaused && currentQuestionIndex != old(currentQuestionIndex)
      ensures view.Some? ==> view == Some(RenderQuestion(testQuestions, userAnswers[..], currentQuestionIndex))
    {
      view := None;
      if currentQuestionIndex < |testQuestions| - 1 {
        view := DisplayQuestion(currentQuestionIndex + 1);
      }
    }

    /** showPrevQuestion: one step back unless at the first question (and nothing while paused). */
    method ShowPrevQuestion() returns (view: Option<QuestionView>)
      requires InTest()
      modifies this`currentQuestionIndex
      ensures InTest()
      ensures currentQuestionIndex == if isPaused then old(currentQuestionIndex)
                                     else PrevIndex(old(currentQuestionIndex))
      ensures view.Some? <==> !isPaused && currentQuestionIndex != old(currentQuestionIndex)
      ensures view.Some? ==> view == Some(RenderQuestion(testQuestions, userAnswers[..], currentQuestionIndex))
    {
      view := None;
      if currentQuestionIndex > 0 {
        view := DisplayQuestion(currentQuestionIndex - 1);
      }
    }

    /**
     * One scheduled auto-advance fires. It reads the current index when it
     * fires; submission does not cancel it, and it never touches an answer.
     */
    method FireAutoAdvance() returns (view: Option<QuestionView>)
      requires InTest() && pendingAdvances > 0
      modifies this`pendingAdvances, this`currentQuestionIndex
      ensures InTest() && pendingAdvances == old(pendingAdvances) - 1
      ensures currentQuestionIndex == if isPaused then old(currentQuestionIndex)
                                     else NextIndex(old(currentQuestionIndex), |testQuestions|)
      ensures view.Some? <==> !isPaused && currentQuestionIndex != old(currentQuestionIndex)
      ensures view.Some? ==> view == Some(RenderQuestion(testQuestions, userAnswers[..], currentQuestionIndex))
    {
      pendingAdvances := pendingAdvances - 1;
      view := None;
      if currentQuestionIndex < |testQuestions| - 1 {
        view := ShowNextQuestion();
      }
    }

    /**
     * startTest before it picks a flow: the loading indicator is shown and
     * every step is hidden. No step is shown again once the test renders.
     * Which flow follows, topic-wise or mock, is the caller's choice.
     */
    method StartTest()
      modifies this`visibleSteps
      ensures visibleSteps == {}
    {
      visibleSteps := {};
    }

    /** togglePauseTimer. */
    method TogglePauseTimer()
      modifies this`isPaused
      ensures isPaused == !old(isPaused)
    {
      isPaused := !isPaused;
    }

    /** startTimer: any previous interval is replaced by one counting down from `duration`. */
    method StartTimer(duration: nat)
      modifies this`timerActive, this`timer, this`timerDuration, this`unpausedTicks
      ensures timerActive && timer == duration && timerDuration == duration && unpausedTicks == 0
    {
      timerActive := true;
      timer := duration;
      timerDuration := duration;
      unpausedTicks := 0;
    }

    /**
     * One firing of the test timer's interval. A paused tick changes nothing.
     * An unpaused tick shows the current value and then decrements it; the
     * (d+1)-th unpaused tick clears the interval and submits the test.
     */
    method Tick(now: int) returns (shown: Option<string>, results: Option<ResultsView>)
      requires InTest() && timerActive && now >= testStartTime
      modifies this`timer, this`unpausedTicks, this`timerActive, this`testEndTime, this`screen, this`currentReviewIndex
      ensures InTest()
      ensures old(isPaused) ==> shown == None && results == None && timer == old(timer)
                                && unpausedTicks == old(unpausedTicks) && timerActive
      ensures !old(isPaused) ==> shown == Some(FormatTime(old(timer))) && timer == old(timer) - 1
                                 && unpausedTicks == old(unpausedTicks) + 1
      ensures results.Some? <==> !old(isPaused) && old(unpausedTicks) == timerDuration
      ensures results.None? ==> timerActive && screen == old(screen) && testEndTime == old(testEndTime)
                                && currentReviewIndex == old(currentReviewIndex)
      ensures results.Some? ==> !timerActive && testEndTime == now && screen == ResultsScreen && Reviewing()
                                && results.value.score == Score(testQuestions, userAnswers[..])
    {
      if isPaused {
        return None, None;
      }
      shown := Some(FormatTime(timer));
      CountDown();
      if timer < 0 {
        timerActive := false;
        var r := SubmitTest(now);
        results := Some(r);
      } else {
        results := None;
      }
    }

    /** `--timer` in an unpaused tick. */
    method CountDown()
      modifies this`timer, this`unpausedTicks
      ensures timer == old(timer) - 1 && unpausedTicks == old(unpausedTicks) + 1
    {
      timer := timer - 1;
      unpausedTicks := unpausedTicks + 1;
    }

    /** confirmAndSubmitTest: the prompt counts the null answers; only a confirmed prompt submits. */
    method ConfirmAndSubmitTest(confirmed: bool, now: int) returns (message: string, results: Option<ResultsView>)
      requires InTest() && now >= testStartTime
      modifies this`timerActive, this`testEndTime, this`screen, this`currentReviewIndex
      ensures InTest()
      ensures message == ConfirmMessage(CountUnanswered(userAnswers[..]))
      ensures results.Some? <==> confirmed
      ensures !confirmed ==> timerActive == old(timerActive) && screen == old(screen) && testEndTime == old(testEndTime)
                             && currentReviewIndex == old(currentReviewIndex)
      ensures confirmed ==> !timerActive && testEndTime == now && screen == ResultsScreen && Reviewing()
                            && results.value.score == Score(testQuestions, userAnswers[..])
    {
      message := ConfirmMessage(CountUnanswered(userAnswers[..]));
      results := None;
      if confirmed {
        var r := SubmitTest(now);
        results := Some(r);
      }
    }

    /** submitTest: clears the timer interval, records the end time and shows the results. */
    method SubmitTest(now: int) returns (results: ResultsView)
      requires InTest() && now >= testStartTime
      modifies this`timerActive, this`testEndTime, this`screen, this`currentReviewIndex
      ensures !timerActive && testEndTime == now && screen == ResultsScreen
      ensures Reviewing() && currentReviewIndex == 0
      ensures results == ResultsView(Score(testQuestions, userAnswers[..]), |testQuestions|,
                                     FormatTime(TimeTakenSeconds(testStartTime, now)),
                                     RenderReview(testQuestions, userAnswers[..], 0))
    {
      timerActive := false;
      testEndTime := now;
      screen := ResultsScreen;
      results := CalculateAndShowResults();
    }

    /** calculateAndShowResults: score, time taken, and the first review page. */
    method CalculateAndShowResults() returns (results: ResultsView)
      requires InTest() && testEndTime >= testStartTime
      modifies this`currentReviewIndex
      ensures Reviewing() && currentReviewIndex == 0
      ensures results == ResultsView(Score(testQuestions, userAnswers[..]), |testQuestions|,
                                     FormatTime(TimeTakenSeconds(testStartTime, testEndTime)),
                                     RenderReview(testQuestions, userAnswers[..], 0))
    {
      var score := CountScore(testQuestions, userAnswers);
      var timeTaken := TimeTakenSeconds(testStartTime, testEndTime);
      currentReviewIndex := 0;
      results := ResultsView(score, |testQuestions|, FormatTime(timeTaken),
                             RenderReview(testQuestions, userAnswers[..], currentReviewIndex));
    }

    /** showNextReviewQuestion: one step forward unless at the last question. */
    method ShowNextReviewQuestion() returns (view: Option<ReviewView>)
      requires Reviewing()
      modifies this`currentReviewIndex
      ensures Reviewing()
      ensures currentReviewIndex == NextIndex(old(currentReviewIndex), |testQuestions|)
      ensures view == if currentReviewIndex == old(currentReviewIndex) then None
                      else Some(RenderReview(testQuestions, userAnswers[..], currentReviewIndex))
    {
      view := None;
      if currentReviewIndex < |testQuestions| - 1 {
        currentReviewIndex := currentReviewIndex + 1;
        view := Some(RenderReview(testQuestions, userAnswers[..], currentReviewIndex));
      }
    }

    /** showPrevReviewQuestion: one step back unless at the first question. */
    method ShowPrevReviewQuestion() returns (view: Option<ReviewView>)
      requires Reviewing()
      modifies this`currentReviewIndex
      ensures Reviewing()
      ensures currentReviewIndex == PrevIndex(old(currentReviewIndex))
      ensures view == if currentReviewIndex == old(currentReviewIndex) then None
                      else Some(RenderReview(testQuestions, userAnswers[..], currentReviewIndex))
    {
      view := None;
      if currentReviewIndex > 0 {
        currentReviewIndex := currentReviewIndex - 1;
        view := Some(RenderReview(testQuestions, userAnswers[..], currentReviewIndex));
      }
    }

    /**
     * renderTest: a fresh all-null answer array as long as the question list,
     * the start time, the countdown, then displayQuestion(0). On an empty
     * list displayQuestion(0) throws after setting the index: `view` is None
     * and no test is on, though the timer runs.
     */
    method RenderTest(durationInSeconds: nat, now: int) returns (view: Option<QuestionView>)
      requires !isPaused
      modifies this`screen, this`userAnswers, this`testStartTime, this`currentQuestionIndex
      modifies this`timerActive, this`timer, this`timerDuration, this`unpausedTicks
      ensures fresh(userAnswers) && userAnswers.Length == |testQuestions|
      ensures forall i :: 0 <= i < userAnswers.Length ==> userAnswers[i] == None
      ensures screen == TestScreen && testStartTime == now && currentQuestionIndex == 0
      ensures timerActive && timer == durationInSeconds && timerDuration == durationInSeconds && unpausedTicks == 0
      ensures |testQuestions| > 0 ==>
        JustStarted(durationInSeconds, now) && view == Some(RenderQuestion(testQuestions, userAnswers[..], 0))
      ensures |testQuestions| == 0 ==> view == None
    {
      screen := TestScreen;
      userAnswers := new Answer[|testQuestions|](_ => None);
      testStartTime := now;
      StartTimer(durationInSeconds);
      if |testQuestions| == 0 {
        currentQuestionIndex := 0;
        return None;
      }
      view := DisplayQuestion(0);
    }

    /**
     * startTopicWiseTest up to its `await`: the request and the loading
     * indicator, whose intervals then fire until the request settles.
     */
    method BeginTopicWiseTest(subject: string, unit: string, topic: string, numQuestions: nat)
      returns (request: GenerateRequest, loading: LoadingIndicator)
      ensures request == GenerateRequest(subject, unit, topic, numQuestions, "topic-wise")
      ensures fresh(loading) && loading.Valid() && loading.countdownActive && loading.progressActive
      ensures loading.estimate == EstimatedSeconds(numQuestions) && loading.countdownTicks == 0
      ensures loading.totalIntervals == EstimatedSeconds(numQuestions) * 10 && loading.progressTicks == 0
      ensures !loading.barFull
    {
      var estimatedTotalTime := EstimatedSeconds(numQuestions);
      loading := new LoadingIndicator(estimatedTotalTime, estimatedTotalTime * 1000 / 100);
      request := GenerateRequest(subject, unit, topic, numQuestions, "topic-wise");
    }

    /**
     * startTopicWiseTest once its request has settled. A failure clears both
     * loading intervals and reloads the page; so does an empty list, because
     * the exception renderTest then throws lands in the same catch.
     */
    method SettleTopicWiseTest(loading: LoadingIndicator, durationMinutes: nat, response: Fetch<seq<Question>>, now: int)
      returns (launch: Launch, view: Option<QuestionView>)
      requires !isPaused
      modifies this, loading`countdownActive, loading`progressActive, loading`barFull
      ensures !loading.countdownActive && !loading.progressActive
      ensures launch != Faulted
      ensures launch == Started <==> response.Ok? && |response.value| > 0
      ensures launch == Reloaded ==> Initial() && view == None
      ensures launch == Started ==>
        && testQuestions == response.value && loading.barFull
        && fresh(userAnswers) && JustStarted(durationMinutes * 60, now)
        && view == Some(RenderQuestion(testQuestions, userAnswers[..], 0))
      ensures launch == Started ==>
        && currentUiStep == old(currentUiStep) && visibleSteps == old(visibleSteps)
        && currentTopicPage == old(currentTopicPage) && pendingAdvances == old(pendingAdvances)
        && currentReviewIndex == old(currentReviewIndex) && testEndTime == old(testEndTime)
    {
      match response {
        case Failed(_) =>
          loading.Stop();
          Reload();
          launch, view := Reloaded, None;
        case Ok(questions) =>
          testQuestions := questions;
          loading.Stop();
          loading.FillBar();
          view := RenderTest(durationMinutes * 60, now);
          if view.None? {
            loading.Stop();
            Reload();
            launch := Reloaded;
          } else {
            launch := Started;
          }
      }
    }

    /**
     * generateSubjectMockTest up to its loop: the list is emptied, the
     * per-topic count fixed and the loading indicator started. The whole
     * flow is this, then RequestTopics and FinishSubjectMockTest on the
     * indicator returned here, in turn.
     */
    method BeginSubjectMockTest(topics: seq<string>, totalQuestions: nat)
      returns (perTopic: int, loading: LoadingIndicator)
      modifies this`testQuestions
      ensures testQuestions == []
      ensures |topics| > 0 ==> perTopic == QuestionsPerTopic(totalQuestions, |topics|)
      ensures fresh(loading) && loading.Valid() && loading.countdownActive && loading.progressActive
      ensures loading.estimate == EstimatedSeconds(|topics|) && loading.countdownTicks == 0
      ensures loading.totalIntervals == EstimatedSeconds(|topics|) * 5 && loading.progressTicks == 0
      ensures !loading.barFull
    {
      testQuestions := [];
      // Without topics the count is `Math.ceil(totalQuestions / 0)`, but no request uses it.
      perTopic := if |topics| > 0 then QuestionsPerTopic(totalQuestions, |topics|) else 1;
      var estimatedTotalTime := EstimatedSeconds(|topics|);
      loading := new LoadingIndicator(estimatedTotalTime, estimatedTotalTime * 1000 / 200);
    }

    /**
     * The `for...of` loop of generateSubjectMockTest: each topic's request
     * is sent in turn, the loading intervals fire `waits[i]` times while it
     * is outstanding, and a successful result is pushed onto
     * `testQuestions`; a failed one is skipped.
     */
    method RequestTopics(subject: string, unitKey: string, topics: seq<string>, perTopic: int,
                         results: seq<Fetch<seq<Question>>>, loading: LoadingIndicator, waits: seq<Wait>)
      returns (requests: seq<GenerateRequest>)
      requires |results| == |topics| && |waits| == |topics|
      requires loading.Valid() && loading.countdownActive && loading.progressActive
      modifies this`testQuestions
      modifies loading`remaining, loading`countdownText, loading`countdownTicks, loading`currentInterval, loading`progressTicks
      ensures testQuestions == old(testQuestions) + Pool(results)
      ensures |requests| == |topics|
      ensures forall i :: 0 <= i < |topics| ==> requests[i] == MockRequest(subject, unitKey, topics[i], perTopic)
      ensures loading.Valid()
      ensures loading.countdownTicks == old(loading.countdownTicks) + CountdownWaits(waits)
      ensures loading.progressTicks == old(loading.progressTicks) + ProgressWaits(waits)
    {
      requests := [];
      var i := 0;
      while i < |topics|
        invariant 0 <= i <= |topics|
        invariant testQuestions == old(testQuestions) + Pool(results[..i])
        invariant |requests| == i
        invariant forall k :: 0 <= k < i ==> requests[k] == MockRequest(subject, unitKey, topics[k], perTopic)
        invariant loading.Valid() && loading.countdownActive && loading.progressActive
        invariant loading.countdownTicks == old(loading.countdownTicks) + CountdownWaits(waits[..i])
        invariant loading.progressTicks == old(loading.progressTicks) + ProgressWaits(waits[..i])
      {
        assert results[..i + 1][..i] == results[..i];
        assert waits[..i + 1][..i] == waits[..i];
        requests := requests + [MockRequest(subject, unitKey, topics[i], perTopic)];
        loading.Elapse(waits[i]);
        match results[i] {
          case Ok(newQuestions) => testQuestions := testQuestions + newQuestions;
          case Failed(_) =>
        }
        i := i + 1;
      }
      assert results[..i] == results;
      assert waits[..i] == waits;
    }

    /**
     * generateSubjectMockTest after its loop: both intervals cleared, the bar
     * full, the pool shuffled and cut to the total, then renderTest. An empty
     * list leaves the exception of displayQuestion(0) uncaught (`Faulted`).
     */
    method FinishSubjectMockTest(loading: LoadingIndicator, totalQuestions: nat, durationMinutes: nat,
                                 shuffle: seq<Question> -> seq<Question>, now: int)
      returns (launch: Launch, view: Option<QuestionView>)
      requires IsShuffle(shuffle)
      requires !isPaused
      modifies loading`countdownActive, loading`progressActive, loading`barFull
      modifies this`testQuestions
      modifies this`screen, this`userAnswers, this`testStartTime, this`currentQuestionIndex
      modifies this`timerActive, this`timer, this`timerDuration, this`unpausedTicks
      ensures !loading.countdownActive && !loading.progressActive && loading.barFull
      ensures testQuestions == Sample(shuffle(old(testQuestions)), totalQuestions)
      ensures launch != Reloaded
      ensures launch == Started <==> |testQuestions| > 0
      ensures fresh(userAnswers) && userAnswers.Length == |testQuestions|
      ensures screen == TestScreen && testStartTime == now && currentQuestionIndex == 0
      ensures timerActive && timer == durationMinutes * 60
      ensures launch == Started ==>
        JustStarted(durationMinutes * 60, now) && view == Some(RenderQuestion(testQuestions, userAnswers[..], 0))
      ensures launch == Faulted ==> testQuestions == [] && view == None
    {
      loading.Stop();
      loading.FillBar();
      testQuestions := Sample(shuffle(testQuestions), totalQuestions);
      view := RenderTest(durationMinutes * 60, now);
      launch := if |testQuestions| > 0 then Started else Faulted;
    }
  }
}

=== FILE: SessionViews.dfy ===
/**
 * What static/script.js derives from the session state without changing it:
 * the bounds of the Next/Previous moves, the nav-button and palette flags,
 * the highlighted option, the score and time taken, and the review tags.
 */
module SessionViews {
  import opened Wrappers
  import opened Questions
  import opened TimeFormat

  /** An entry of `userAnswers`: the chosen option's index, or null. */
  type Answer = Option<nat>

  /** The index after `showNextQuestion` / `showNextReviewQuestion`. */
  function NextIndex(index: int, count: int): int {
    if index < count - 1 then index + 1 else index
  }

  /** The index after `showPrevQuestion` / `showPrevReviewQuestion`. */
  function PrevIndex(index: int): int {
    if index > 0 then index - 1 else index
  }

  /** Next and Previous move by exactly one, only while the result stays a valid index. */
  lemma MovesStayInBounds(index: int, count: int)
    requires 0 <= index < count
    ensures 0 <= NextIndex(index, count) < count && 0 <= PrevIndex(index) < count
    ensures NextIndex(index, count) != index <==> index + 1 < count
    ensures NextIndex(index, count) != index ==> NextIndex(index, count) == index + 1
    ensures PrevIndex(index) != index <==> index > 0
    ensures PrevIndex(index) != index ==> PrevIndex(index) == index - 1
  {
  }

  /** Previous undoes a Next that moved. */
  lemma PrevUndoesNext(index: int, count: int)
    requires 0 <= index < count - 1
    ensures PrevIndex(NextIndex(index, count)) == index
  {
  }

  /** `updateNavButtons`: which of the two buttons are disabled. */
  datatype NavButtons = NavButtons(prevDisabled: bool, nextDisabled: bool)

  /** On a valid index, a button is disabled exactly when pressing it would not move. */
  function NavButtonsAt(index: int, count: int): (b: NavButtons)
    ensures 0 <= index < count ==> (b.prevDisabled <==> PrevIndex(index) == index)
    ensures 0 <= index < count ==> (b.nextDisabled <==> NextIndex(index, count) == index)
  {
    NavButtons(index == 0, index == count - 1)
  }

  /** The flags `updatePaletteHighlight` sets on one palette button. */
  datatype PaletteButton = PaletteButton(current: bool, answered: bool)

  /** Button i is current exactly at `current`, and answered exactly when question i has an answer. */
  function Palette(answers: seq<Answer>, current: int): (p: seq<PaletteButton>)
    ensures |p| == |answers|
    ensures forall i :: 0 <= i < |p| ==> (p[i].current <==> i == current) && (p[i].answered <==> answers[i] != None)
  {
    seq(|answers|, i requires 0 <= i < |answers| => PaletteButton(i == current, answers[i] != None))
  }

  /** `userAnswers.filter(a => a === null).length`. */
  function CountUnanswered(answers: seq<Answer>): (n: nat)
    ensures n <= |answers|
  {
    if answers == [] then 0
    else CountUnanswered(answers[..|answers| - 1]) + (if answers[|answers| - 1] == None then 1 else 0)
  }

  /** The number of palette buttons flagged "answered". */
  function CountAnsweredButtons(p: seq<PaletteButton>): nat {
    if p == [] then 0
    else CountAnsweredButtons(p[..|p| - 1]) + (if p[|p| - 1].answered then 1 else 0)
  }

  /**
   * The palette marks exactly one button current (for a valid index), marks
   * a button answered exactly when its question has an answer, and so the
   * buttons not marked answered are exactly the unanswered count that the
   * submit confirmation reports.
   */
  lemma {:induction false} PaletteAgreesWithState(answers: seq<Answer>, current: int)
    ensures 0 <= current < |answers| ==>
      forall i :: 0 <= i < |answers| ==> (Palette(answers, current)[i].current <==> i == current)
    ensures forall i :: 0 <= i < |answers| ==> (Palette(answers, current)[i].answered <==> answers[i] != None)
    ensures CountAnsweredButtons(Palette(answers, current)) + CountUnanswered(answers) == |answers|
  {
    if answers != [] {
      var n := |answers|;
      assert Palette(answers, current)[..n - 1] == Palette(answers[..n - 1], current);
      PaletteAgreesWithState(answers[..n - 1], current);
    }
  }

  /** The `selected` class on each option of the displayed question: on option i exactly when the answer is i. */
  function SelectedMarks(optionCount: nat, answer: Answer): (m: seq<bool>)
    ensures |m| == optionCount
    ensures forall i :: 0 <= i < optionCount ==> (m[i] <==> answer == Some(i))
  {
    seq(optionCount, i => answer == Some(i))
  }

  /**
   * Option i is highlighted exactly when the recorded answer is i: at most one
   * is, and one is exactly when the recorded answer names an option.
   */
  lemma SelectedMarksMeaning(optionCount: nat, answer: Answer)
    ensures forall i :: 0 <= i < optionCount ==> (SelectedMarks(optionCount, answer)[i] <==> answer == Some(i))
    ensures answer.Some? && answer.value < optionCount ==> SelectedMarks(optionCount, answer)[answer.value]
    ensures forall i, j :: 0 <= i < j < optionCount ==> !(SelectedMarks(optionCount, answer)[i] && SelectedMarks(optionCount, answer)[j])
    ensures (exists i :: 0 <= i < optionCount && SelectedMarks(optionCount, answer)[i])
            <==> answer.Some? && answer.value < optionCount
  {
    if answer.Some? && answer.value < optionCount {
      assert SelectedMarks(optionCount, answer)[answer.value];
    }
  }

  /** What `displayQuestion(index)` puts on the test screen. */
  datatype QuestionView = QuestionView(
    number: nat,
    total: nat,
    text: string,
    options: seq<string>,
    selected: seq<bool>,
    nav: NavButtons,
    palette: seq<PaletteButton>)

  /**
   * The view shows question index + 1 of all of them, counting from one, with
   * its own text and options, one selection flag per option, and one palette
   * button per question of which the shown one is current.
   */
  function RenderQuestion(questions: seq<Question>, answers: seq<Answer>, index: int): (v: QuestionView)
    requires |answers| == |questions| && 0 <= index < |questions|
    ensures 1 <= v.number <= v.total == |questions| && v.number == index + 1
    ensures v.text == questions[index].text && v.options == questions[index].options
    ensures |v.selected| == |v.options| && |v.palette| == |questions| && v.palette[index].current
  {
    var q := questions[index];
    QuestionView(index + 1, |questions|, q.text, q.options,
      SelectedMarks(|q.options|, answers[index]),
      NavButtonsAt(index, |questions|),
      Palette(answers, index))
  }

  /**
   * Everything `displayQuestion(index)` shows besides the text: option i is
   * highlighted exactly when the recorded answer is i, Previous and Next are
   * disabled exactly when they would not move, and palette button i is
   * current exactly at the index and answered exactly when question i has an
   * answer.
   */
  lemma RenderQuestionMeaning(questions: seq<Question>, answers: seq<Answer>, index: int)
    requires |answers| == |questions| && 0 <= index < |questions|
    ensures var v := RenderQuestion(questions, answers, index);
      && (forall i :: 0 <= i < |v.selected| ==> (v.selected[i] <==> answers[index] == Some(i)))
      && (v.nav.prevDisabled <==> PrevIndex(index) == index)
      && (v.nav.nextDisabled <==> NextIndex(index, |questions|) == index)
      && (forall i :: 0 <= i < |v.palette| ==> (v.palette[i].current <==> i == index))
      && (forall i :: 0 <= i < |v.palette| ==> (v.palette[i].answered <==> answers[i] != None))
  {
    SelectedMarksMeaning(|questions[index].options|, answers[index]);
    PaletteAgreesWithState(answers, index);
  }

  /** The message `confirmAndSubmitTest` asks the user to confirm. */
  /**
   * The count of unanswered questions can be read back from the message
   * exactly when it is positive.
   */
  function ConfirmMessage(unanswered: nat): (m: string)
    ensures unanswered > 0 ==>
      |m| >= 40 && m[..9] == "You have " && AllDigits(m[9..|m| - 30]) && DigitsValue(m[9..|m| - 30]) == unanswered
    ensures unanswered == 0 ==> |m| >= 9 && m[..9] != "You have "
  {
    DecimalRoundTrip(unanswered);
    if unanswered > 0 then "You have " + Decimal(unanswered) + " unanswered questions. Submit?"
    else
      var m := "Are you sure you want to submit the test?";
      assert m[0] == 'A' && "You have "[0] == 'Y';
      m
  }

  /** `userAnswers[i] === q.correct_answer_index`: null never equals a key. */
  predicate IsCorrect(q: Question, answer: Answer) {
    answer.Some? && answer.value == q.correctAnswerIndex
  }

  /** The `score` of calculateAndShowResults. */
  function Score(questions: seq<Question>, answers: seq<Answer>): (r: nat)
    requires |questions| == |answers|
    ensures r <= |questions|
  {
    if questions == [] then 0
    else
      var n := |questions|;
      Score(questions[..n - 1], answers[..n - 1]) + (if IsCorrect(questions[n - 1], answers[n - 1]) then 1 else 0)
  }

  /** Unanswered questions never score: score + unanswered <= total. */
  lemma {:induction false} ScoreBound(questions: seq<Question>, answers: seq<Answer>)
    requires |questions| == |answers|
    ensures Score(questions, answers) + CountUnanswered(answers) <= |questions|
  {
    if questions != [] {
      var n := |questions|;
      ScoreBound(questions[..n - 1], answers[..n - 1]);
    }
  }

  /** Full marks exactly when every question was answered with its key. */
  lemma {:induction false} FullScore(questions: seq<Question>, answers: seq<Answer>)
    requires |questions| == |answers|
    ensures Score(questions, answers) == |questions|
            <==> forall i :: 0 <= i < |questions| ==> IsCorrect(questions[i], answers[i])
  {
    if questions != [] {
      var n := |questions|;
      var qs, ans := questions[..n - 1], answers[..n - 1];
      FullScore(qs, ans);
      ScoreBound(qs, ans);
      if forall i :: 0 <= i < n ==> IsCorrect(questions[i], answers[i]) {
        assert forall i :: 0 <= i < n - 1 ==> IsCorrect(qs[i], ans[i]);
      } else if Score(questions, answers) == n {
        assert Score(qs, ans) == n - 1 && IsCorrect(questions[n - 1], answers[n - 1]);
        forall i | 0 <= i < n ensures IsCorrect(questions[i], answers[i]) {
          if i < n - 1 {
            assert IsCorrect(qs[i], ans[i]);
          }
        }
      }
    }
  }

  /** Answering the first k questions correctly and leaving the rest blank scores exactly k. */
  lemma {:induction false} ScoreOfCorrectPrefix(questions: seq<Question>, answers: seq<Answer>, k: nat)
    requires |questions| == |answers| && k <= |questions|
    requires forall i :: 0 <= i < k ==> IsCorrect(questions[i], answers[i])
    requires forall i :: k <= i < |answers| ==> answers[i] == None
    ensures Score(questions, answers) == k
  {
    if questions != [] {
      var n := |questions|;
      if k == n {
        ScoreOfCorrectPrefix(questions[..n - 1], answers[..n - 1], k - 1);
      } else {
        ScoreOfCorrectPrefix(questions[..n - 1], answers[..n - 1], k);
      }
    }
  }

  /** Math.floor((end - start) / 1000): whole seconds elapsed, rounding down. */
  function TimeTakenSeconds(startMs: int, endMs: int): (t: int)
    ensures t * 1000 <= endMs - startMs < t * 1000 + 1000
    ensures startMs <= endMs ==> t >= 0
  {
    (endMs - startMs) / 1000
  }

  /** The class `displayReviewQuestion` gives one option. */
  datatype ReviewTag = ReviewCorrect | ReviewIncorrect | ReviewNeutral

  function ReviewTags(q: Question, answer: Answer): (tags: seq<ReviewTag>)
    ensures |tags| == |q.options|
  {
    seq(|q.options|, i =>
      if i == q.correctAnswerIndex then ReviewCorrect
      else if answer == Some(i) then ReviewIncorrect
      else ReviewNeutral)
  }

  /**
   * The key's option is the one "correct" option; "incorrect" marks the
   * user's answer exactly when it differs from the key, so an unanswered or
   * correctly answered question has no "incorrect" option.
   */
  lemma ReviewTagsMeaning(q: Question, answer: Answer)
    ensures 0 <= q.correctAnswerIndex < |q.options| ==> ReviewTags(q, answer)[q.correctAnswerIndex] == ReviewCorrect
    ensures forall j :: 0 <= j < |q.options| ==> (ReviewTags(q, answer)[j] == ReviewCorrect <==> j == q.correctAnswerIndex)
    ensures forall j :: 0 <= j < |q.options| ==>
      (ReviewTags(q, answer)[j] == ReviewIncorrect <==> answer == Some(j) && j != q.correctAnswerIndex)
    ensures answer == None || IsCorrect(q, answer) ==> ReviewIncorrect !in ReviewTags(q, answer)
  {
  }

  /** What `displayReviewQuestion(index)` puts on the results screen. */
  datatype ReviewView = ReviewView(
    number: nat,
    total: nat,
    text: string,
    explanation: string,
    tags: seq<ReviewTag>,
    nav: NavButtons)

  /**
   * The review page shows question index + 1 of all of them, with its own
   * text and explanation and one tag per option, the key's option "correct".
   */
  function RenderReview(questions: seq<Question>, answers: seq<Answer>, index: int): (v: ReviewView)
    requires |answers| == |questions| && 0 <= index < |questions|
    ensures 1 <= v.number <= v.total == |questions| && v.number == index + 1
    ensures v.text == questions[index].text && v.explanation == questions[index].explanation
    ensures |v.tags| == |questions[index].options|
    ensures 0 <= questions[index].correctAnswerIndex < |v.tags| ==> v.tags[questions[index].correctAnswerIndex] == ReviewCorrect
  {
    var q := questions[index];
    ReviewView(index + 1, |questions|, q.text, q.explanation, ReviewTags(q, answers[index]),
      NavButtonsAt(index, |questions|))
  }

  /** The score summary of `calculateAndShowResults`, with the first review page. */
  datatype ResultsView = ResultsView(score: nat, total: nat, timeTaken: string, review: ReviewView)
}

=== FILE: Shuffling.dfy ===
/** The random reorderings of both sides, abstracted to what every outcome shares. */
module Shuffling {
  /**
   * Whatever order a shuffle produces (a random-comparator `sort`,
   * `random.shuffle`), it keeps every element exactly as often as it was there.
   */
  ghost predicate IsShuffle<T(!new)>(shuffle: seq<T> -> seq<T>) {
    forall s :: multiset(shuffle(s)) == multiset(s)
  }

  /** A shuffle neither adds nor drops elements. */
  lemma ShuffleKeepsLength<T(!new)>(shuffle: seq<T> -> seq<T>, s: seq<T>)
    requires IsShuffle(shuffle)
    ensures |shuffle(s)| == |s|
  {
    assert multiset(shuffle(s)) == multiset(s);
    assert |multiset(shuffle(s))| == |shuffle(s)| && |multiset(s)| == |s|;
  }
}

=== FILE: TimeFormat.dfy ===
/**
 * `formatTime` of static/script.js: a non-negative number of seconds shown
 * as zero-padded minutes, a colon and zero-padded seconds. There is no hour
 * field: 3600 seconds is shown as "60:00".
 */
module TimeFormat {
  import opened Wrappers

  predicate IsDigit(c: char) {
    '0' <= c <= '9'
  }

  predicate AllDigits(s: string) {
    forall i :: 0 <= i < |s| ==> IsDigit(s[i])
  }

  function DigitChar(d: nat): (c: char)
    requires d < 10
    ensures IsDigit(c) && c as int - '0' as int == d
  {
    ('0' as int + d) as char
  }

  /** The decimal rendering JavaScript's template literals give a non-negative integer. */
  function Decimal(n: nat): (s: string)
    ensures 1 <= |s| && AllDigits(s)
    ensures n < 10 <==> |s| == 1
    ensures 10 <= n < 100 ==> |s| == 2
  {
    if n < 10 then [DigitChar(n)] else Decimal(n / 10) + [DigitChar(n % 10)]
  }

  /** The value of a string of decimal digits (the reading side of Decimal). */
  function DigitsValue(s: string): nat
    requires AllDigits(s)
  {
    if s == [] then 0 else DigitsValue(s[..|s| - 1]) * 10 + (s[|s| - 1] as int - '0' as int)
  }

  lemma {:induction false} DecimalRoundTrip(n: nat)
    ensures DigitsValue(Decimal(n)) == n
  {
    if n >= 10 {
      var s := Decimal(n);
      assert s[..|s| - 1] == Decimal(n / 10);
      DecimalRoundTrip(n / 10);
    }
  }

  /** `${m < 10 ? '0' : ''}${m}`: at least two digits, denoting n. */
  function Pad2(n: nat): (s: string)
    ensures 2 <= |s| && AllDigits(s)
    ensures n < 100 ==> |s| == 2
    ensures DigitsValue(s) == n
  {
    DecimalRoundTrip(n);
    if n < 10 then
      var s := "0" + Decimal(n);
      assert s[..1] == "0";
      s
    else Decimal(n)
  }

  function FormatTime(seconds: nat): (s: string)
    ensures |s| >= 5 && s[|s| - 3] == ':'
    ensures seconds < 6000 ==> |s| == 5
  {
    Pad2(seconds / 60) + ":" + Pad2(seconds % 60)
  }

  /** Reads "M...M:SS" back into seconds; the partner of FormatTime. */
  function ParseClock(s: string): Option<nat> {
    if |s| >= 4 && s[|s| - 3] == ':' && AllDigits(s[..|s| - 3]) && AllDigits(s[|s| - 2..])
       && DigitsValue(s[|s| - 2..]) < 60
    then Some(DigitsValue(s[..|s| - 3]) * 60 + DigitsValue(s[|s| - 2..]))
    else None
  }

  /** What formatTime shows denotes exactly the seconds it was given. */
  lemma FormatTimeRoundTrip(seconds: nat)
    ensures ParseClock(FormatTime(seconds)) == Some(seconds)
  {
    var m, sec := Pad2(seconds / 60), Pad2(seconds % 60);
    var s := FormatTime(seconds);
    assert s == m + ":" + sec;
    assert s[..|s| - 3] == m;
    assert s[|s| - 2..] == sec;
  }

  /** Two different second counts are never shown the same way. */
  lemma FormatTimeInjective(a: nat, b: nat)
    requires FormatTime(a) == FormatTime(b)
    ensures a == b
  {
    FormatTimeRoundTrip(a);
    FormatTimeRoundTrip(b);
  }
}

=== FILE: TopicPaging.dfy ===
/**
 * The paging arithmetic of `renderCurrentTopicsPage` in static/script.js:
 * a subject's topics are shown eight at a time, with "Previous" and "Next"
 * controls.
 */
module TopicPaging {
  const TopicsPerPage: nat := 8

  /** What the topic area shows: an error for an empty list, or one page. */
  datatype TopicPage = NoTopics | Page(topics: seq<string>, showPrev: bool, showNext: bool)

  function Min(a: int, b: int): int {
    if a <= b then a else b
  }

  /** JavaScript's `slice(start, end)` for 0 <= start <= end: both ends clamp to the length. */
  function Slice<T>(s: seq<T>, start: nat, end: nat): (r: seq<T>)
    requires start <= end
    ensures |r| == Min(end, |s|) - Min(start, |s|)
    ensures forall k :: 0 <= k < |r| ==> r[k] == s[start + k]
  {
    s[Min(start, |s|)..Min(end, |s|)]
  }

  function RenderTopicsPage(allTopics: seq<string>, page: nat): (r: TopicPage)
    ensures r.NoTopics? <==> allTopics == []
    ensures r.Page? ==> |r.topics| <= TopicsPerPage
  {
    if |allTopics| == 0 then NoTopics
    else
      var startIndex := page * TopicsPerPage;
      var endIndex := startIndex + TopicsPerPage;
      Page(Slice(allTopics, startIndex, endIndex), page > 0, endIndex < |allTopics|)
  }

  /**
   * Page p shows allTopics[8p .. min(8p+8, n)), "Previous" exactly when
   * p > 0 and "Next" exactly when topics remain after the page.
   */
  lemma PageContents(allTopics: seq<string>, page: nat)
    requires allTopics != [] && page * TopicsPerPage <= |allTopics|
    ensures var r := RenderTopicsPage(allTopics, page);
      && r.Page?
      && r.topics == allTopics[page * TopicsPerPage..Min(page * TopicsPerPage + TopicsPerPage, |allTopics|)]
      && (r.showPrev <==> page > 0)
      && (r.showNext <==> page * TopicsPerPage + TopicsPerPage < |allTopics|)
  {
  }

  /** Every topic is shown on page i / 8, at position i % 8, and on no other page. */
  lemma EveryTopicOnItsPage(allTopics: seq<string>, i: nat, page: nat)
    requires i < |allTopics|
    ensures var r := RenderTopicsPage(allTopics, page);
      r.Page? && (0 <= i - page * TopicsPerPage < |r.topics| <==> page == i / TopicsPerPage)
    ensures var r := RenderTopicsPage(allTopics, i / TopicsPerPage);
      r.Page? && r.topics[i % TopicsPerPage] == allTopics[i]
  {
    var r := RenderTopicsPage(allTopics, page);
    var p := i / TopicsPerPage;
    assert p * TopicsPerPage <= i < p * TopicsPerPage + TopicsPerPage;
    if page < p {
      assert page * TopicsPerPage + TopicsPerPage <= p * TopicsPerPage;
    } else if page > p {
      assert page * TopicsPerPage >= p * TopicsPerPage + TopicsPerPage;
    }
  }

  /**
   * Following "Next" from a page that shows it leads to a page with at least
   * one topic: the pages reachable from page 0 are never empty.
   */
  lemma NextPageNonEmpty(allTopics: seq<string>, page: nat)
    requires RenderTopicsPage(allTopics, page).Page? && RenderTopicsPage(allTopics, page).showNext
    ensures var r := RenderTopicsPage(allTopics, page + 1);
      r.Page? && 1 <= |r.topics| && r.showPrev
  {
    assert (page + 1) * TopicsPerPage == page * TopicsPerPage + TopicsPerPage;
  }

  /** Following "Previous" from a page that shows it leads to a full page with "Next". */
  lemma PrevPageFull(allTopics: seq<string>, page: nat)
    requires RenderTopicsPage(allTopics, page).Page? && RenderTopicsPage(allTopics, page).showPrev
    requires page * TopicsPerPage < |allTopics|
    ensures var r := RenderTopicsPage(allTopics, page - 1);
      r.Page? && |r.topics| == TopicsPerPage && r.showNext
  {
    assert (page - 1) * TopicsPerPage + TopicsPerPage == page * TopicsPerPage;
  }
}

=== FILE: Wrappers.dfy ===
/** Optional values: JavaScript's `null` answer slot and Python's `None`. */
module Wrappers {
  datatype Option<T> = None | Some(value: T)
}
